=== FILE: README.md ===
# snippetvault request authorisation, as a Dafny model

snippetvault is a code-snippet manager with a Spring REST API and a Vue front end. This project models the part of it that decides who gets which answer for each request. It is pure functions over immutable datatypes. The pieces, in request order:

- **JWT request filter** (`JwtRequestFilter.Filter`). It reads the `Authorization` header. It strips the case-sensitive `Bearer ` prefix and asks the token codec for the subject. On an expired token it short-circuits with 403 "Token expired". Otherwise it loads a fresh principal and attaches an authentication, but only when the context is empty and the token validates.
  - The codec is a parameter: `JwtUtil` is not part of this model.
  - Sessions are stateless, so `RequestAuthorization.HandleRequest` always starts the filter from an empty context.
- **Principal resolution** (`UserDetailsService.LoadUserByUsername`, module `UserDetails`). The user is read by name and its roles by id, both afresh on every call. A missing user becomes `UsernameNotFoundException("User not found")`. A repository failure becomes a generic runtime failure. The administrator flag is derived from the roles.
- **Access policy** (module `RequestAuthorization`, module `Ownership`):
  - only `/api/auth/login` is public;
  - each endpoint carries one of these rules: admin-only, snippet owner, snippet owner and tag owner (short-circuiting), tag owner, or the post-check of `getTag`;
  - the ownership predicates allow when the lookup finds no row, compare owners when it finds one, and let a lookup failure (such as the database's snippet-not-found code) propagate to the exception resolver.
- **Failure translation** (modules `SqlErrorCode`, `DbErrorCodes`, `RepositoryCalls`, `SnippetRepository`, `UserRepository`, `TagRepository`, `ExceptionResolver`). It has four layers:
  - the Oracle message is read with the pattern `ORA-(-?\d+)` and 32-bit `Integer.parseInt`;
  - the number is looked up in the error-code enum;
  - each repository operation's switch turns the enum constant into a domain exception, with its own placement of result unpacking relative to the `try`;
  - `ExceptionResolver` maps the exception to an HTTP status and message.
- **Controller derivations** (modules `AuthController`, `UserController`, `ResourceControllers`):
  - login admin flag and token subject;
  - registration roles;
  - current user;
  - the user listing;
  - conditional password hashing;
  - the admin flag captured before a mutation;
  - principal-scoped owners;
  - success status codes.
- **Front end** (module `Frontend`): the user store and the router's `beforeEach` guard.

Every `CallOutcome<T>` is what a stored-procedure call did: `Returned(result object)` or `Threw(failure)`. The stores and the user directory are functions from ids or names to such outcomes. So a lookup can yield a row, an empty result (Java `null`), or a database error, as the code distinguishes them.

**A token for a user who no longer exists.** `JwtRequestFilter.java` catches only `ExpiredJwtException`. So the `UsernameNotFoundException` from `loadUserByUsername` leaves the filter chain as an escaped exception. The filter runs before the dispatcher, so the controller advice never sees it. This is `JwtRequestFilter.UnknownSubjectEscapes` and `RequestAuthorization.UnknownSubjectEverywhere`.

## Model

| member | source | states |
|---|---|---|
| SqlErrorCode.DigitRun | api/src/main/java/org/bauerbrun0/snippetvault/api/repository/DBRepositoryUtils.java:57 | the `\d+` run at a position is maximal: all digits, followed by the end or a non-digit |
| SqlErrorCode.FindFrom | api/src/main/java/org/bauerbrun0/snippetvault/api/repository/DBRepositoryUtils.java:57-59 | `Matcher.find()`: the returned position matches `ORA-(-?\d+)` and no earlier position does; no result means no position matches |
| SqlErrorCode.ParseInt | api/src/main/java/org/bauerbrun0/snippetvault/api/repository/DBRepositoryUtils.java:60 | `Integer.parseInt` of the group succeeds exactly when the signed value fits in 32 bits, and then yields that value |
| SqlErrorCode.GetSqlErrorCode | api/src/main/java/org/bauerbrun0/snippetvault/api/repository/DBRepositoryUtils.java:52-64 | the code is 0 when the cause is not an `SQLException`, its message is null, or the pattern is not found |
| SqlErrorCode.OracleMessageRoundTrip | api/src/main/java/org/bauerbrun0/snippetvault/api/repository/DBRepositoryUtils.java:52-64 | reading the code back from a database message `ORA-<code>: <text>` gives the code for every text when it fits in 32 bits, and the number-format failure otherwise |
| SqlErrorCode.DigitsRoundTrip | api/src/main/java/org/bauerbrun0/snippetvault/api/repository/DBRepositoryUtils.java:60 | decimal digits read back give the number they were written from |
| SqlErrorCode.DigitRunExact | api/src/main/java/org/bauerbrun0/snippetvault/api/repository/DBRepositoryUtils.java:57 | the greedy digit run stops exactly at the first non-digit |
| DbErrorCodes.Code | api/src/main/java/org/bauerbrun0/snippetvault/api/repository/DBErrorCodes.java:7-16 | the declared constants carry codes 20001 to 20009 and UNKNOWN carries 0; FILE_NOT_FOUND and LANGUAGE_NOT_FOUND carry codes the enum does not fix |
| DbErrorCodes.AllListed | api/src/main/java/org/bauerbrun0/snippetvault/api/repository/DBErrorCodes.java:23-30 | `values()` lists every constant, and UNKNOWN last |
| DbErrorCodes.CodesDistinct | api/src/main/java/org/bauerbrun0/snippetvault/api/repository/DBErrorCodes.java:7-16 | no two declared constants share a code |
| DbErrorCodes.FromCode | api/src/main/java/org/bauerbrun0/snippetvault/api/repository/DBErrorCodes.java:23-30 | any constant other than UNKNOWN that the lookup yields carries the code looked up; it yields a declared non-UNKNOWN constant iff the code is in 20001..20009 |
| DbErrorCodes.FromCodeFirstCarrier | api/src/main/java/org/bauerbrun0/snippetvault/api/repository/DBErrorCodes.java:24-28 | the first constant in `values()` order that carries the code is the one the lookup returns |
| DbErrorCodes.FromCodeUnknownOtherwise | api/src/main/java/org/bauerbrun0/snippetvault/api/repository/DBErrorCodes.java:29 | a code no declared constant carries maps to UNKNOWN |
| DbErrorCodes.FromCodeScan | api/src/main/java/org/bauerbrun0/snippetvault/api/repository/DBErrorCodes.java:23-30 | the enum's first-match loop over `values()` computes the same total function as the code table |
| DbErrorCodes.FromCodeRoundTrip | api/src/main/java/org/bauerbrun0/snippetvault/api/repository/DBErrorCodes.java:23-30 | looking up a declared constant's code returns that constant, and so does looking up any constant's code that no other constant shares |
| DbErrorCodes.UndeclaredReachability | api/src/main/java/org/bauerbrun0/snippetvault/api/repository/DBErrorCodes.java:23-30 | FILE_NOT_FOUND is reachable iff its code is outside 20001..20009; LANGUAGE_NOT_FOUND iff also distinct from FILE_NOT_FOUND's; UNKNOWN iff neither is 0; with fresh codes every constant is reachable |
| ResultObjects.CastAll | api/src/main/java/org/bauerbrun0/snippetvault/api/repository/DBRepositoryUtils.java:30-43 | the cast succeeds iff every element is an instance of the type (null included as a failure), and then keeps every element in order |
| ResultObjects.GetListFromResultObject | api/src/main/java/org/bauerbrun0/snippetvault/api/repository/DBRepositoryUtils.java:18-50 | null, a non-list or a badly typed element give an illegal-state failure; a well-typed list, the empty one included, comes back element for element |
| ResultObjects.RowsObject | api/src/main/java/org/bauerbrun0/snippetvault/api/repository/DBRepositoryUtils.java:30-43 | the cursor a list of rows arrives as holds each row as an instance, in order |
| ResultObjects.RowsRoundTrip | api/src/main/java/org/bauerbrun0/snippetvault/api/repository/DBRepositoryUtils.java:18-50 | unpacking the cursor of a row list gives the row list back |
| ResultObjects.FirstOrNull | api/src/main/java/org/bauerbrun0/snippetvault/api/repository/DBSnippetRepository.java:299 | first row, or null exactly when there are no rows |
| RepositoryCalls.Switch | api/src/main/java/org/bauerbrun0/snippetvault/api/repository/DBSnippetRepository.java:300-308 | an unreadable code is the number-format failure, and code 0 takes the UNKNOWN arm whenever UNKNOWN is reachable |
| RepositoryCalls.SwitchTakesArm | api/src/main/java/org/bauerbrun0/snippetvault/api/repository/DBSnippetRepository.java:300-308 | raising the code of a constant the lookup reaches takes exactly that constant's arm |
| RepositoryCalls.RowInTry | api/src/main/java/org/bauerbrun0/snippetvault/api/repository/DBSnippetRepository.java:291-311 | a data-access failure takes the switch, any other failure and a malformed cursor give the operation's fallback; success iff the cursor unpacks, with the first row or null |
| RepositoryCalls.RowAfterSwitch | api/src/main/java/org/bauerbrun0/snippetvault/api/repository/DBSnippetRepository.java:428-448 | failures of the call are translated as in `RowInTry`; a malformed cursor escapes as illegal state; success iff the cursor unpacks, with the first row or null |
| RepositoryCalls.RowAfterCodeCheck | api/src/main/java/org/bauerbrun0/snippetvault/api/repository/DBUserRepository.java:155-172 | a failure is not-found iff the raw code equals the not-found code, number-format iff unreadable, and otherwise the fallback; a malformed cursor escapes as illegal state |
| RepositoryCalls.NoRowWithSwitch | api/src/main/java/org/bauerbrun0/snippetvault/api/repository/DBSnippetRepository.java:313-333 | succeeds iff the call returns; failures are translated by the switch or the fallback |
| RepositoryCalls.ListInTry | api/src/main/java/org/bauerbrun0/snippetvault/api/repository/DBSnippetRepository.java:355-366 | every failure, unpacking included, is the fallback; success iff the cursor unpacks, with its rows |
| RepositoryCalls.ListAfterCatch | api/src/main/java/org/bauerbrun0/snippetvault/api/repository/DBUserRepository.java:195-204 | a failed call is the fallback, a malformed cursor escapes as illegal state, a well-formed one gives its rows |
| RepositoryCalls.ShapesOnRows | api/src/main/java/org/bauerbrun0/snippetvault/api/repository/DBUserRepository.java:155-204 | on a cursor of rows every single-row shape gives the first row or null and every list shape the rows |
| RepositoryCalls.ShapesOnMalformed | api/src/main/java/org/bauerbrun0/snippetvault/api/repository/DBSnippetRepository.java:291-366 | on a malformed cursor, unpacking inside the `try` gives the fallback and unpacking after it gives illegal state |
| SnippetRepository.LongValue | api/src/main/java/org/bauerbrun0/snippetvault/api/repository/DBSnippetRepository.java:402-403 | a database number read as a Java `long` is congruent to it modulo 2^64, in range, and unchanged when it already fits |
| SnippetRepository.MapSnippetRow | api/src/main/java/org/bauerbrun0/snippetvault/api/repository/DBSnippetRepository.java:230-239 | a snippet row keeps its fields and sets `updated` from the CREATED column, so `updated == created` |
| SnippetRepository.MapFileRow | api/src/main/java/org/bauerbrun0/snippetvault/api/repository/DBSnippetRepository.java:278-288 | a file row keeps its fields and takes `updated` from the UPDATED column |
| SnippetRepository.MapIdArray | api/src/main/java/org/bauerbrun0/snippetvault/api/repository/DBSnippetRepository.java:252-273 | a null SQL array gives a null list; otherwise length and order are kept, null elements stay null and the rest are read as `long` |
| SnippetRepository.MapDetailedRow | api/src/main/java/org/bauerbrun0/snippetvault/api/repository/DBSnippetRepository.java:241-276 | a search row keeps id, owner, title, description, relevance and file count, sets `updated == created`, and maps each id array with `MapIdArray`, null exactly when the column is null |
| SnippetRepository.ArrayArgument | api/src/main/java/org/bauerbrun0/snippetvault/api/repository/DBSnippetRepository.java:376-393 | an id filter is SQL null iff the list is null, and the procedure reads back exactly the filter passed |
| SnippetRepository.SearchArgumentsFor | api/src/main/java/org/bauerbrun0/snippetvault/api/repository/DBSnippetRepository.java:367-400 | owner, query, page number and size reach the procedure unchanged; both id filters arrive as given, and an empty filter is an empty array, not null |
| SnippetRepository.GetPaginatedSnippets | api/src/main/java/org/bauerbrun0/snippetvault/api/repository/DBSnippetRepository.java:367-405 | the call receives `SearchArgumentsFor(request)`; a failing call is a repository failure; a malformed cursor is illegal state; otherwise the rows are unpacked and a null total count becomes 0 |
| SnippetRepository.SearchReturnsRows | api/src/main/java/org/bauerbrun0/snippetvault/api/repository/DBSnippetRepository.java:397-405 | a search whose cursor holds well-formed rows succeeds with exactly those rows |
| SnippetRepository.CreateSnippetArms | api/src/main/java/org/bauerbrun0/snippetvault/api/repository/DBSnippetRepository.java:301-305 | USER_NOT_FOUND and only it gives user-not-found; every other constant the generic failure |
| SnippetRepository.AddTagArms | api/src/main/java/org/bauerbrun0/snippetvault/api/repository/DBSnippetRepository.java:320-328 | TAG_NOT_FOUND, SNIPPET_NOT_FOUND and DUPLICATE_TAG_ON_SNIPPET each give, and alone give, their exception; the rest the generic failure |
| SnippetRepository.RemoveTagArms | api/src/main/java/org/bauerbrun0/snippetvault/api/repository/DBSnippetRepository.java:343-347 | TAG_NOT_ON_SNIPPET and only it gives tag-not-on-snippet; the rest the generic failure |
| SnippetRepository.SnippetMutationArms | api/src/main/java/org/bauerbrun0/snippetvault/api/repository/DBSnippetRepository.java:436-440 | SNIPPET_NOT_FOUND and only it gives snippet-not-found; the rest the generic failure (the same switch at 461-465) |
| SnippetRepository.CreateFileArms | api/src/main/java/org/bauerbrun0/snippetvault/api/repository/DBSnippetRepository.java:489-495 | SNIPPET_NOT_FOUND and LANGUAGE_NOT_FOUND each give, and alone give, their exception; the rest the generic failure |
| SnippetRepository.UpdateFileArms | api/src/main/java/org/bauerbrun0/snippetvault/api/repository/DBSnippetRepository.java:529-535 | FILE_NOT_FOUND and LANGUAGE_NOT_FOUND each give, and alone give, their exception; the rest the generic failure |
| SnippetRepository.DeleteFileArms | api/src/main/java/org/bauerbrun0/snippetvault/api/repository/DBSnippetRepository.java:555-559 | FILE_NOT_FOUND and only it gives file-not-found; the rest the generic failure |
| SnippetRepository.CreateSnippetFailures | api/src/main/java/org/bauerbrun0/snippetvault/api/repository/DBSnippetRepository.java:300-309 | a database failure of `createSnippet` is user-not-found iff the code is 20003, a number-format failure iff the code is unreadable, and otherwise generic |
| SnippetRepository.AddTagFailures | api/src/main/java/org/bauerbrun0/snippetvault/api/repository/DBSnippetRepository.java:319-332 | tag-not-found, snippet-not-found and duplicate-tag each arise iff their code (20006, 20008, 20007) is raised; anything else is generic |
| SnippetRepository.RemoveTagFailures | api/src/main/java/org/bauerbrun0/snippetvault/api/repository/DBSnippetRepository.java:342-351 | only 20009 becomes tag-not-on-snippet; the snippet-not-found code becomes the generic failure |
| SnippetRepository.GetSnippetOutcomes | api/src/main/java/org/bauerbrun0/snippetvault/api/repository/DBSnippetRepository.java:413-424 | snippet-not-found iff code 20008; any other failure is generic; an empty cursor is null |
| SnippetRepository.SnippetMutationFailures | api/src/main/java/org/bauerbrun0/snippetvault/api/repository/DBSnippetRepository.java:427-473 | delete and update translate only 20008, to snippet-not-found, and translate the same way |
| SnippetRepository.FileFailures | api/src/main/java/org/bauerbrun0/snippetvault/api/repository/DBSnippetRepository.java:475-567 | update reports file-not-found and language-not-found, delete file-not-found, create snippet-not-found (20008) and language-not-found, each iff the database raises that constant's code and the lookup reaches it; with fresh codes, iff the code alone |
| SnippetRepository.SingleRowResults | api/src/main/java/org/bauerbrun0/snippetvault/api/repository/DBSnippetRepository.java:290-567 | every single-row snippet and file operation returns the first row, or null for none |
| SnippetRepository.MalformedResults | api/src/main/java/org/bauerbrun0/snippetvault/api/repository/DBSnippetRepository.java:290-473 | a malformed cursor escapes as illegal state where unpacking follows the `try`, and is wrapped as a repository failure where it is inside |
| SnippetRepository.GetSnippetNotFoundMessage | api/src/main/java/org/bauerbrun0/snippetvault/api/repository/DBSnippetRepository.java:416-418 | the database's own snippet-not-found message on `getSnippet` becomes snippet-not-found, whatever its text |
| UserRepository.LookupFailures | api/src/main/java/org/bauerbrun0/snippetvault/api/repository/DBUserRepository.java:154-192 | lookup by name or id: user-not-found iff code 20003, number-format iff unreadable, otherwise the generic user-repository failure |
| UserRepository.DeleteUserArms | api/src/main/java/org/bauerbrun0/snippetvault/api/repository/DBUserRepository.java:215-221 | USER_NOT_FOUND and CANNOT_DELETE_LAST_ADMIN each give, and alone give, their exception; the rest the generic failure |
| UserRepository.CreateUserArms | api/src/main/java/org/bauerbrun0/snippetvault/api/repository/DBUserRepository.java:242-248 | DUPLICATE_USERNAME and ROLE_NOT_FOUND each give, and alone give, their exception; the rest the generic failure |
| UserRepository.UpdateUserArms | api/src/main/java/org/bauerbrun0/snippetvault/api/repository/DBUserRepository.java:266-272 | USER_NOT_FOUND and DUPLICATE_USERNAME each give, and alone give, their exception; the rest the generic failure |
| UserRepository.DeleteUserFailures | api/src/main/java/org/bauerbrun0/snippetvault/api/repository/DBUserRepository.java:214-224 | user-not-found iff 20003, cannot-delete-last-admin iff 20004, otherwise generic |
| UserRepository.CreateUserFailures | api/src/main/java/org/bauerbrun0/snippetvault/api/repository/DBUserRepository.java:241-252 | duplicate-username iff 20001, role-not-found iff 20002, otherwise generic |
| UserRepository.UpdateUserFailures | api/src/main/java/org/bauerbrun0/snippetvault/api/repository/DBUserRepository.java:265-276 | user-not-found iff 20003, duplicate-username iff 20001, otherwise generic |
| UserRepository.ListFailures | api/src/main/java/org/bauerbrun0/snippetvault/api/repository/DBUserRepository.java:194-204 | listing users or roles never reports user-not-found: a failed call is generic and a malformed result is illegal state |
| UserRepository.RowResults | api/src/main/java/org/bauerbrun0/snippetvault/api/repository/DBUserRepository.java:154-295 | list calls return the rows whole, single-row calls the first row or null |
| UserRepository.LastAdminMessage | api/src/main/java/org/bauerbrun0/snippetvault/api/repository/DBUserRepository.java:214-224 | the database's last-administrator message on `deleteUser` becomes the dedicated error, whatever its text |
| TagRepository.CreateTagFailures | api/src/main/java/org/bauerbrun0/snippetvault/api/repository/DBTagRepository.java:56-78 | user-not-found iff 20003, invalid-colour iff 20005; every other failure, a malformed result included, is the user-repository one |
| TagRepository.CreateTagArms | api/src/main/java/org/bauerbrun0/snippetvault/api/repository/DBTagRepository.java:67-73 | USER_NOT_FOUND and INVALID_TAG_COLOR each give, and alone give, their exception; the rest the generic user-repository failure |
| TagRepository.CreateTagRow | api/src/main/java/org/bauerbrun0/snippetvault/api/repository/DBTagRepository.java:64-65 | the created tag is the first row, or null |
| TagRepository.InvalidColorMessage | api/src/main/java/org/bauerbrun0/snippetvault/api/repository/DBTagRepository.java:70-71 | the database's invalid-colour message becomes the invalid-colour error, whatever its text |
| ExceptionResolver.Resolve | api/src/main/java/org/bauerbrun0/snippetvault/api/advice/ExceptionResolver.java:22-119 | 403 iff expired token; 401 iff bad credentials or denial; 404 iff no handler, user or snippet not found; 400 exactly for the validation and domain kinds (tag-not-found included); 500 with the generic phrase iff no dedicated handler; each handler's fixed message |
| ExceptionResolver.DistinguishableFailures | api/src/main/java/org/bauerbrun0/snippetvault/api/advice/ExceptionResolver.java:54-112 | an expired token and an authorisation denial differ in status and message; tag-not-found is 400 while user and snippet not-found are 404 |
| ExceptionResolver.CatchAllIsUniform | api/src/main/java/org/bauerbrun0/snippetvault/api/advice/ExceptionResolver.java:114-119 | every kind without a dedicated handler gets the same 500 response with no detail |
| UserDetails.AnyAdmin | api/src/main/java/org/bauerbrun0/snippetvault/api/security/CustomUserDetails.java:24-26 | true iff some role in the list is the administrator role |
| UserDetails.IsAdmin | api/src/main/java/org/bauerbrun0/snippetvault/api/security/CustomUserDetails.java:24-26 | a principal is an administrator iff one of its authorities is the administrator role |
| UserDetails.Id | api/src/main/java/org/bauerbrun0/snippetvault/api/security/CustomUserDetails.java:20-22 | the principal's id is the wrapped user's id |
| UserDetails.Username | api/src/main/java/org/bauerbrun0/snippetvault/api/security/CustomUserDetails.java:38-41 | the principal's name is the wrapped user's name |
| UserDetails.Password | api/src/main/java/org/bauerbrun0/snippetvault/api/security/CustomUserDetails.java:33-36 | the principal's password is the wrapped user's stored hash |
| UserDetails.PrincipalReadsUser | api/src/main/java/org/bauerbrun0/snippetvault/api/security/CustomUserDetails.java:12-41 | the principal reports the wrapped user's id, name and stored hash, and its authorities are exactly the roles it was built with |
| UserDetails.Status | api/src/main/java/org/bauerbrun0/snippetvault/api/security/CustomUserDetails.java:43-61 | all four account flags are always true |
| UserDetails.AdminFollowsRoles | api/src/main/java/org/bauerbrun0/snippetvault/api/security/CustomUserDetails.java:24-26 | adding the administrator role makes a principal an administrator; removing every administrator role makes it not one |
| UserDetailsService.Rethrown | api/src/main/java/org/bauerbrun0/snippetvault/api/service/CustomUserDetailsService.java:35-40 | user-not-found becomes "User not found", a repository failure becomes the generic runtime failure, anything else passes unchanged |
| UserDetailsService.LoadUserByUsername | api/src/main/java/org/bauerbrun0/snippetvault/api/service/CustomUserDetailsService.java:28-41 | succeeds iff the user and its roles are read, with exactly that user and those roles; a failed user or role read gives `Rethrown` of its error, so username-not-found iff the lookup reports user-not-found; a null user is a null dereference |
| UserDetailsService.UnknownUserIffCode | api/src/main/java/org/bauerbrun0/snippetvault/api/service/CustomUserDetailsService.java:30-36 | resolution reports username-not-found exactly when the database raises code 20003 on the name lookup |
| UserDetailsService.RolesReadAfresh | api/src/main/java/org/bauerbrun0/snippetvault/api/service/CustomUserDetailsService.java:30-34 | the principal holds the roles the store returns on this call, so a newly granted administrator role is seen at once |
| JwtRequestFilter.BearerToken | api/src/main/java/org/bauerbrun0/snippetvault/api/security/JwtRequestFilter.java:37-45 | a token exists iff the header starts with the case-sensitive `Bearer `, and it is the header with those 7 characters removed |
| JwtRequestFilter.Filter | api/src/main/java/org/bauerbrun0/snippetvault/api/security/JwtRequestFilter.java:37-64 | no token leaves the context as it is; short-circuits with 403 "Token expired" iff the subject or, for an empty context, the validation is expired; a readable token with an authentication already present or with no subject passes on the context unchanged, without a user lookup; one is attached only for a validating token, with the loaded principal's authorities; a failed load or a rejected token propagates; a valid false token continues unauthenticated |
| JwtRequestFilter.ValidTokenAuthenticates | api/src/main/java/org/bauerbrun0/snippetvault/api/security/JwtRequestFilter.java:48-58 | a valid token for a resolvable subject, into an empty context, attaches that principal with its authorities |
| JwtRequestFilter.ExpiredIsDistinguishable | api/src/main/java/org/bauerbrun0/snippetvault/api/security/JwtRequestFilter.java:60-63 | the short-circuit answer differs in status and message from an authorisation denial |
| JwtRequestFilter.UnknownSubjectEscapes | api/src/main/java/org/bauerbrun0/snippetvault/api/security/JwtRequestFilter.java:42-63 | a token naming an unknown user lets username-not-found propagate out of the filter |
| Ownership.OwnerCheck | api/src/main/java/org/bauerbrun0/snippetvault/api/security/SnippetSecurity.java:16-23 | the lookup's error propagates unchanged; false iff a row exists with another owner; true when there is no row |
| Ownership.SnippetIsOwner | api/src/main/java/org/bauerbrun0/snippetvault/api/security/SnippetSecurity.java:16-23 | true iff the snippet is missing or owned by the principal; a failed snippet lookup gives exactly that lookup's error |
| Ownership.TagIsOwner | api/src/main/java/org/bauerbrun0/snippetvault/api/security/TagSecurity.java:16-23 | true iff the tag is missing or owned by the principal; a failed tag lookup gives exactly that lookup's error |
| Ownership.SnippetOwnership | api/src/main/java/org/bauerbrun0/snippetvault/api/security/SnippetSecurity.java:16-23 | an existing snippet is owned iff its user id is the principal's; no row allows; code 20008 from the store propagates as snippet-not-found |
| RequestAuthorization.RuleOf | api/src/main/java/org/bauerbrun0/snippetvault/api/controller/SnippetController.java:98-275 | admin-only exactly on user management and registration; snippet-and-tag owner exactly on adding and removing a tag; no rule exactly on login, current user, create, search and tag listing |
| RequestAuthorization.PermitAll | api/src/main/java/org/bauerbrun0/snippetvault/api/config/SecurityConfig.java:53-56 | the login endpoint is the only mapped endpoint the route rule leaves open, and an open endpoint carries no method rule |
| RequestAuthorization.PreAuthorize | api/src/main/java/org/bauerbrun0/snippetvault/api/controller/SnippetController.java:171-189 | admin-only asks the role; the snippet-owner and tag-owner rules are exactly the owner checks, their errors included; the two-owner rule is the snippet check when that does not allow and the tag check when it does; no rule and the post-checked `getTag` allow before the call |
| RequestAuthorization.Authorize | api/src/main/java/org/bauerbrun0/snippetvault/api/controller/TagController.java:84-125 | a failing pre-check is resolved by the advice, a refusing one is 401 "Unauthorized"; `getTag`'s post-check resolves a lookup failure, answers a null body with 500 and a foreign tag with 401; the handler runs iff both checks allow, with the principal |
| RequestAuthorization.HandleRequest | api/src/main/java/org/bauerbrun0/snippetvault/api/config/SecurityConfig.java:47-62 | only the public path is served without a principal; an anonymous request elsewhere is refused; no handler runs for an unmapped request, which once admitted is answered from the dispatcher's exception |
| RequestAuthorization.AuthorizeMatchesPolicy | api/src/main/java/org/bauerbrun0/snippetvault/api/controller/TagController.java:84-125 | for an authenticated principal, the handler runs iff the endpoint's rule holds on the data (admin role, snippet/tag missing or owned, returned tag owned) |
| RequestAuthorization.AdmissionMatchesPolicy | api/src/main/java/org/bauerbrun0/snippetvault/api/config/SecurityConfig.java:53-60 | when the filter authenticates a principal, the whole pipeline serves the request iff the policy allows it |
| RequestAuthorization.CrossUserSnippetDenied | api/src/main/java/org/bauerbrun0/snippetvault/api/security/SnippetSecurity.java:16-23 | a snippet owned by someone else is refused with 401 "Unauthorized" whatever the principal's roles |
| RequestAuthorization.TagNotConsultedAfterSnippetRefusal | api/src/main/java/org/bauerbrun0/snippetvault/api/controller/SnippetController.java:171-189 | when the snippet check does not allow, adding or removing a tag is not served and the outcome does not depend on the tag store |
| RequestAuthorization.ForeignTagOnOwnSnippetDenied | api/src/main/java/org/bauerbrun0/snippetvault/api/controller/SnippetController.java:171 | a foreign tag on one's own snippet is refused with 401 |
| RequestAuthorization.ExpiredTokenEverywhere | api/src/main/java/org/bauerbrun0/snippetvault/api/security/JwtRequestFilter.java:60-63 | an expired token is answered 403 "Token expired" on every endpoint, the public one included |
| RequestAuthorization.UnknownSubjectEverywhere | api/src/main/java/org/bauerbrun0/snippetvault/api/security/JwtRequestFilter.java:48-63 | on every endpoint, a token naming an unknown user ends with username-not-found escaping the chain, not with an advice response |
| RequestAuthorization.NonAdminRefused | api/src/main/java/org/bauerbrun0/snippetvault/api/controller/UserController.java:28 | a principal without the administrator role is refused 401 on every admin-only endpoint |
| RequestAuthorization.AnonymousRequests | api/src/main/java/org/bauerbrun0/snippetvault/api/config/SecurityConfig.java:53-56 | without a header every non-public endpoint is refused, and login is served without a principal |
| RequestAuthorization.SingleTagRead | api/src/main/java/org/bauerbrun0/snippetvault/api/controller/TagController.java:120-125 | `getTag` is checked after the fetch: a foreign tag is refused 401, a missing one fails the expression with 500 |
| RequestAuthorization.MissingSnippetIs404 | api/src/main/java/org/bauerbrun0/snippetvault/api/security/SnippetSecurity.java:16-23 | the database's snippet-not-found code raised while a snippet-scoped rule reads the snippet is answered 404 "Snippet not found" |
| RequestAuthorization.DispatchFailureAnswers | api/src/main/java/org/bauerbrun0/snippetvault/api/advice/ExceptionResolver.java:22-119 | an admitted request no handler matches gets 404 "Not Found" only for a missing mapping; a missing static resource or a wrong method, `GET /api/auth/login` included, gets the catch-all 500 |
| RequestAuthorization.DispatchError | api/src/main/java/org/bauerbrun0/snippetvault/api/advice/ExceptionResolver.java:22-26 | a missing mapping, a missing resource and a wrong method raise three distinct exceptions, only the first of them `NoHandlerFoundException` |
| AuthController.Login | api/src/main/java/org/bauerbrun0/snippetvault/api/controller/AuthController.java:64-75 | failed credentials are returned as they are; then a failed user or role read is returned as it is and a null user is a null dereference; otherwise it succeeds, with a token for the stored username, the user's id, name and creation time, and a flag that is true iff some role is the administrator role |
| AuthController.LoginSucceeds | api/src/main/java/org/bauerbrun0/snippetvault/api/controller/AuthController.java:64-75 | valid credentials for a stored user with readable roles give exactly the response built from that user and roles |
| AuthController.BadCredentialsReadNothing | api/src/main/java/org/bauerbrun0/snippetvault/api/controller/AuthController.java:66-68 | with bad credentials the answer does not depend on the user store or the token generator |
| AuthController.RegisterRoles | api/src/main/java/org/bauerbrun0/snippetvault/api/controller/AuthController.java:92 | the user role always, the administrator role iff requested, nothing else |
| AuthController.Register | api/src/main/java/org/bauerbrun0/snippetvault/api/controller/AuthController.java:88-101 | the repository receives the hashed password and derived roles; success is 201 with the created user and the requested flag echoed; failures pass through; a null created user is a null dereference |
| AuthController.CurrentUser | api/src/main/java/org/bauerbrun0/snippetvault/api/controller/AuthController.java:113-124 | id, name and flag come from the principal, only the creation time from the store; a failed read passes through and a null user is a null dereference |
| AuthController.CurrentUserFromPrincipal | api/src/main/java/org/bauerbrun0/snippetvault/api/controller/AuthController.java:113-124 | for a stored row the response is the principal's id, name and flag with the row's creation time, whatever name the row holds |
| UserController.UsersResponse | api/src/main/java/org/bauerbrun0/snippetvault/api/controller/UserController.java:51-61 | succeeds iff every user's admin flag is read; then one response per user in order, with that user's id, name, creation time and flag; otherwise the first flag failure |
| UserController.GetUsers | api/src/main/java/org/bauerbrun0/snippetvault/api/controller/UserController.java:47-63 | a failed listing passes through; success iff the listing and every flag read succeed, with one response per listed user carrying its fields and flag |
| UserController.SingleUserResponse | api/src/main/java/org/bauerbrun0/snippetvault/api/controller/UserController.java:146-161 | errors pass through, a null user is a null dereference; a found user succeeds iff its flag is read, with id, name, creation time and that flag |
| UserController.DeleteUser | api/src/main/java/org/bauerbrun0/snippetvault/api/controller/UserController.java:91-102 | a failing flag read fails the request; otherwise the flag reported is the one read before the deletion, success iff the deletion returns a user, whose fields are reported, a failure passes through and a null row is a null dereference |
| UserController.PasswordFor | api/src/main/java/org/bauerbrun0/snippetvault/api/controller/UserController.java:120-124 | hashed iff present and non-empty; null stays null; the empty string is passed on unhashed |
| UserController.UpdateUser | api/src/main/java/org/bauerbrun0/snippetvault/api/controller/UserController.java:115-134 | a failing flag read fails the request; otherwise the flag reported is the one read before the update, the repository sees the password only as `PasswordFor` gives it, a failure passes through and a null row is a null dereference |
| UserController.FlagIsPreMutation | api/src/main/java/org/bauerbrun0/snippetvault/api/controller/UserController.java:93-94 | deleting an administrator reports it as an administrator |
| UserController.FlagFailureStopsMutation | api/src/main/java/org/bauerbrun0/snippetvault/api/controller/UserController.java:93-94 | when the flag read fails, the deletion and the update are never consulted |
| ResourceControllers.CallOf | api/src/main/java/org/bauerbrun0/snippetvault/api/controller/SnippetController.java:48-85 | create and search use the principal's id as owner; file update and delete forward both the file id and the snippet id |
| ResourceControllers.SuccessStatus | api/src/main/java/org/bauerbrun0/snippetvault/api/controller/SnippetController.java:59-219 | 201 exactly for the creating endpoints, 204 exactly for adding and removing a tag, 200 otherwise |
| ResourceControllers.CheckedIdIsUsedId | api/src/main/java/org/bauerbrun0/snippetvault/api/controller/SnippetController.java:98-281 | the id an ownership rule checks is the id the service call uses |
| ResourceControllers.OwnerComesFromPrincipal | api/src/main/java/org/bauerbrun0/snippetvault/api/controller/TagController.java:45-57 | two principals sending the same body create under different owners; a tag's owner is the principal |
| Frontend.InitialStore | frontend/src/stores/user.ts:4-18 | the store starts logged in as a non-administrator |
| Frontend.IsLoggedIn | frontend/src/stores/user.ts:19 | logged in iff a user is stored |
| Frontend.IsAdmin | frontend/src/stores/user.ts:20 | false without a user, otherwise the user's flag |
| Frontend.SetUser | frontend/src/stores/user.ts:21-23 | the stored user is replaced, after which the store is logged in with that user's flag |
| Frontend.MetaOf | frontend/src/router/index.ts:16-47 | only the admin route requires admin, which implies auth; only login and unmatched paths require nothing |
| Frontend.RouteOf | frontend/src/router/index.ts:12-47 | `/` goes to the snippets route; a path is the admin or login route iff, lower-cased and without one trailing slash, it is `/admin` or `/login` |
| Frontend.RouteIgnoresCase | frontend/src/router/index.ts:12-47 | lower-casing a path does not change its route |
| Frontend.RouteIgnoresTrailingSlash | frontend/src/router/index.ts:12-47 | one added trailing slash does not change a path's route |
| Frontend.AdminVariants | frontend/src/router/index.ts:34-56 | `/admin/`, `/Admin` and `/ADMIN/` are the admin route, and a signed-in non-administrator visiting `/Admin/` is sent to the snippets |
| Frontend.Guard | frontend/src/router/index.ts:51-59 | a protected route while logged out goes to login; redirects go only to login or snippets |
| Frontend.GuardAdmitsIffMayView | frontend/src/router/index.ts:51-59 | navigation proceeds iff the route's requirements are met and it is not login while logged in |
| Frontend.SignedOutAdminGoesToLogin | frontend/src/router/index.ts:55-56 | the auth check comes first, so a logged-out visit to the admin page goes to login |
| Frontend.RedirectsSettle | frontend/src/router/index.ts:51-59 | the guard never redirects twice in a row |
| Frontend.InitialNavigation | frontend/src/router/index.ts:55-58 | with the initial store, snippets proceed and the admin page and login redirect to snippets |

## Left out

- Token signing and parsing are not part of this model (`JwtUtil`). `extractUsername` and `validateToken` are parameters answering a value, expired or rejected.
- BCrypt: `encode` is a parameter, and authentication by `AuthenticationManager` is a parameter of login.
- JDBC mechanics: `SimpleJdbcCall`, cursor plumbing, `toOracleArray` and the stored procedures. A call is its outcome, and the stores are functions from ids to outcomes rather than maps, so that a lookup can also fail.
- The thin service layer, `LanguageController`, the language repository, start-up seeding, DTO validation annotations, Swagger, timestamps (opaque values) and the front end's API clients.
- Concurrency: each request is a sequential read of the current state.
- `Role.java` is not part of this model: `Role.ADMIN` and `Role.USER` are the constructors `AdminRole` and `UserRole`, other names are `OtherRole`, and `hasRole('ADMIN')` is the same test as `getIsAdmin`.
- `UserService.isUserAdmin` and `TagService.getTag` are not part of this model; both are parameters, and `isUserAdmin` may fail with any error kind.
- `FILE_NOT_FOUND` and `LANGUAGE_NOT_FOUND` are named by the snippet repository's switches, but `DBErrorCodes.java` as given does not declare them. The model keeps them as constants with unknown codes (`DbErrorCodes.FILE_NOT_FOUND_CODE`, `DbErrorCodes.LANGUAGE_NOT_FOUND_CODE`). It places them after the nine declared constants and before UNKNOWN in `values()`; the position matters only if a code collides.
- Spring's authentication entry point: a request refused by the route rule ends as `Unauthenticated`, without a modelled status.
- SpEL evaluation: rules are composed statically; a post-check on a null `getTag` body is modelled as an expression failure answered by the catch-all handler.
- Form login, HTTP Basic and CSRF being disabled, and the filter's position before the username/password filter: the model has the bearer header as its only credential and runs the filter before every authorisation decision by construction.
- `@Transactional(readOnly = true)` on `loadUserByUsername` and the final fields of `CustomUserDetails`: every member is a pure function of immutable values, so there is nothing to write or mutate.
- The private `getSqlErrorCode` of `DBUserRepository` (api/src/main/java/org/bauerbrun0/snippetvault/api/repository/DBUserRepository.java:297-309) is textually identical to the shared one and is modelled by the same `SqlErrorCode.GetSqlErrorCode`.
- SqlErrorCode.GetSqlErrorCode: its contract states only the zero cases; the value read from a found match is stated by `SqlErrorCode.OracleMessageRoundTrip` for messages of the database's own form.
- Frontend.RouteOf: case folding is ASCII only; the router's case-insensitive pattern also folds other letters, and percent-decoding, query strings and fragments are not modelled.
- Spring MVC's dispatch: which exception an unknown path raises (`NoHandlerFoundException` or the resource handler's `NoResourceFoundException`) depends on the framework version and configuration, neither of which is part of this model; an unmapped request therefore carries the exception as a parameter (`RequestAuthorization.DispatchFailure`).

=== FILE: auth_controller.dfy ===
/** The authentication endpoints: login, registration by an administrator,
    and the current user. */
module AuthController {
  import opened Wrappers
  import opened Errors
  import opened Entities
  import opened RepositoryCalls
  import opened UserDetails
  import UserRepository
  import ResultObjects

  datatype LoginResponse = LoginResponse(token: string, userId: UserId, username: string, created: Timestamp, admin: bool)

  datatype RegisterResponse = RegisterResponse(id: UserId, username: string, created: Timestamp, admin: bool)

  datatype UserResponse = UserResponse(userId: UserId, username: string, created: Timestamp, admin: bool)

  /** The collaborators of login: the authentication manager's verdict on a
      name and password, the repository calls, and the token generator. */
  datatype LoginServices = LoginServices(
    authenticate: (string, string) -> Result<(), ErrorKind>,
    byUsername: string -> CallOutcome<User>,
    rolesOf: UserId -> CallOutcome<Role>,
    generateToken: string -> string)

  /** `POST /api/auth/login`. Credentials are checked first; only then is the
      user read, with its roles, and a token issued for the stored name. */
  function Login(username: string, password: string, s: LoginServices): (r: Result<LoginResponse, ErrorKind>)
    ensures s.authenticate(username, password).Err? ==> r == Err(s.authenticate(username, password).error)
    ensures r.Ok? ==>
              && s.authenticate(username, password).Ok?
              && var user := UserRepository.GetUserByUsername(s.byUsername(username));
                 && user.Ok? && user.value.Some?
                 && r.value.token == s.generateToken(user.value.value.username)
                 && r.value.userId == user.value.value.id
                 && r.value.username == user.value.value.username
                 && var roles := UserRepository.GetUserRoles(s.rolesOf(user.value.value.id));
                    roles.Ok? && (r.value.admin <==> exists i :: 0 <= i < |roles.value| && roles.value[i].name == AdminRole)
    ensures r.Ok? ==> r.value.created == UserRepository.GetUserByUsername(s.byUsername(username)).value.value.created
    ensures s.authenticate(username, password).Ok? ==>
              var user := UserRepository.GetUserByUsername(s.byUsername(username));
              && (user.Err? ==> r == Err(user.error))
              && (user == Ok(None) ==> r == Err(NullReference))
              && (user.Ok? && user.value.Some? ==>
                    var roles := UserRepository.GetUserRoles(s.rolesOf(user.value.value.id));
                    && (roles.Err? ==> r == Err(roles.error))
                    && (roles.Ok? ==> r.Ok?))
  {
    match s.authenticate(username, password)
    case Err(k) => Err(k)
    case Ok(_) =>
      match UserRepository.GetUserByUsername(s.byUsername(username))
      case Err(k) => Err(k)
      case Ok(None) => Err(NullReference)
      case Ok(Some(user)) =>
        match UserRepository.GetUserRoles(s.rolesOf(user.id))
        case Err(k) => Err(k)
        case Ok(roles) =>
          Ok(LoginResponse(s.generateToken(user.username), user.id, user.username, user.created, AnyAdmin(roles)))
  }

  /** Valid credentials for a stored user with readable roles log in: the
      token is for the stored name and the flag says whether a role is the
      administrator role. */
  lemma LoginSucceeds(username: string, password: string, s: LoginServices, u: User, roles: seq<Role>)
    requires s.authenticate(username, password).Ok?
    requires s.byUsername(username) == Returned(ResultObjects.RowsObject([u]))
    requires s.rolesOf(u.id) == Returned(ResultObjects.RowsObject(roles))
    ensures Login(username, password, s)
            == Ok(LoginResponse(s.generateToken(u.username), u.id, u.username, u.created, AnyAdmin(roles)))
    ensures Login(username, password, s).value.admin <==> exists i :: 0 <= i < |roles| && roles[i].name == AdminRole
  {
    UserRepository.RowResults([u], roles);
  }

  /** Failed credentials are answered before any user data is read: the
      outcome is the same whatever the repository and token generator do. */
  lemma BadCredentialsReadNothing(username: string, password: string, s: LoginServices, t: LoginServices)
    requires s.authenticate(username, password) == Err(BadCredentials)
    requires t.authenticate == s.authenticate
    ensures Login(username, password, s) == Login(username, password, t) == Err(BadCredentials)
  {
  }

  /** The role names a registration stores: always the user role, and the
      administrator role exactly when the request asks for it. */
  function RegisterRoles(isAdmin: bool): (roles: seq<RoleName>)
    ensures UserRole in roles
    ensures AdminRole in roles <==> isAdmin
    ensures forall r :: r in roles ==> r == UserRole || r == AdminRole
    ensures |roles| == if isAdmin then 2 else 1
  {
    if isAdmin then [UserRole, AdminRole] else [UserRole]
  }

  /** `POST /api/auth/register`: the password is hashed before it reaches the
      repository, and the response echoes the requested administrator flag. */
  function Register(
    username: string, password: string, isAdmin: bool,
    encode: string -> PasswordHash,
    createUser: (string, PasswordHash, seq<RoleName>) -> CallOutcome<User>)
    : (r: Result<(int, RegisterResponse), ErrorKind>)
    ensures var created := UserRepository.CreateUser(createUser(username, encode(password), RegisterRoles(isAdmin)));
      && (r.Ok? <==> created.Ok? && created.value.Some?)
      && (r.Ok? ==> r.value.0 == 201
                    && r.value.1 == RegisterResponse(created.value.value.id, created.value.value.username,
                                                     created.value.value.created, isAdmin))
      && (created.Err? ==> r == Err(created.error))
      && (created == Ok(None) ==> r == Err(NullReference))
  {
    var created := UserRepository.CreateUser(createUser(username, encode(password), RegisterRoles(isAdmin)));
    match created
    case Err(k) => Err(k)
    case Ok(None) => Err(NullReference)
    case Ok(Some(user)) => Ok((201, RegisterResponse(user.id, user.username, user.created, isAdmin)))
  }

  /** `GET /api/auth/current-user`: name, id and administrator flag come from
      the authenticated principal, only the creation time from a fresh read. */
  function CurrentUser(p: Principal, getUser: UserId -> CallOutcome<User>): (r: Result<UserResponse, ErrorKind>)
    ensures var user := UserRepository.GetUser(getUser(Id(p)));
      && (r.Ok? <==> user.Ok? && user.value.Some?)
      && (r.Ok? ==> r.value == UserResponse(Id(p), Username(p), user.value.value.created, IsAdmin(p)))
      && (user.Err? ==> r == Err(user.error))
      && (user == Ok(None) ==> r == Err(NullReference))
  {
    match UserRepository.GetUser(getUser(Id(p)))
    case Err(k) => Err(k)
    case Ok(None) => Err(NullReference)
    case Ok(Some(user)) => Ok(UserResponse(Id(p), Username(p), user.created, IsAdmin(p)))
  }

  /** Only the creation time is read from the store: a stored row whose name
      differs from the principal's still answers with the principal's name,
      id and administrator flag. */
  lemma CurrentUserFromPrincipal(p: Principal, getUser: UserId -> CallOutcome<User>, u: User)
    requires getUser(Id(p)) == Returned(ResultObjects.RowsObject([u]))
    ensures CurrentUser(p, getUser) == Ok(UserResponse(Id(p), Username(p), u.created, IsAdmin(p)))
    ensures CurrentUser(p, getUser).value.username == p.user.username
  {
    UserRepository.RowResults([u], []);
  }
}

=== FILE: db_error_codes.dfy ===
/** The application error codes raised by the stored procedures, and the
    lookup from a numeric code to its enum constant. */
module DbErrorCodes {
  import opened Wrappers

  /** The enum constants. `FileNotFound` and `LanguageNotFound` are named by the
      snippet repository's switches, but their declarations are not part of
      this model: their codes are the unspecified constants below. */
  datatype DbErrorCode =
    | DuplicateUsername
    | RoleNotFound
    | UserNotFound
    | CannotDeleteLastAdmin
    | InvalidTagColor
    | TagNotFound
    | DuplicateTagOnSnippet
    | SnippetNotFound
    | TagNotOnSnippet
    | FileNotFound
    | LanguageNotFound
    | Unknown

  /** The codes of the two constants whose declaration is not modelled; no
      value is assumed for either. */
  const FILE_NOT_FOUND_CODE: int
  const LANGUAGE_NOT_FOUND_CODE: int

  /** The enum's `values()`: the declared constants in declaration order, the
      two undeclared ones placed after them and before `UNKNOWN`. */
  function Values(): (vs: seq<DbErrorCode>)
    ensures |vs| == 12 && vs[|vs| - 1] == Unknown
  {
    [DuplicateUsername, RoleNotFound, UserNotFound, CannotDeleteLastAdmin, InvalidTagColor,
     TagNotFound, DuplicateTagOnSnippet, SnippetNotFound, TagNotOnSnippet,
     FileNotFound, LanguageNotFound, Unknown]
  }

  /** Every constant is among the `values()`. */
  lemma AllListed(v: DbErrorCode)
    ensures v in Values()
  {
  }

  /** The constants whose declaration (and so whose code) is known. */
  predicate Declared(v: DbErrorCode) {
    !v.FileNotFound? && !v.LanguageNotFound?
  }

  /** The numeric code a constant carries (`getCode()`). */
  function Code(v: DbErrorCode): (r: int)
    ensures v == Unknown ==> r == 0
    ensures Declared(v) && v != Unknown ==> 20001 <= r <= 20009
    ensures v == FileNotFound ==> r == FILE_NOT_FOUND_CODE
    ensures v == LanguageNotFound ==> r == LANGUAGE_NOT_FOUND_CODE
  {
    match v
    case DuplicateUsername => 20001
    case RoleNotFound => 20002
    case UserNotFound => 20003
    case CannotDeleteLastAdmin => 20004
    case InvalidTagColor => 20005
    case TagNotFound => 20006
    case DuplicateTagOnSnippet => 20007
    case SnippetNotFound => 20008
    case TagNotOnSnippet => 20009
    case FileNotFound => FILE_NOT_FOUND_CODE
    case LanguageNotFound => LANGUAGE_NOT_FOUND_CODE
    case Unknown => 0
  }

  /** No two declared constants share a code. */
  lemma CodesDistinct(v: DbErrorCode, w: DbErrorCode)
    requires Declared(v) && Declared(w) && Code(v) == Code(w)
    ensures v == w
  {
  }

  /** `fromCode`, as the table it amounts to: the first constant of `values()`
      carrying the code, `UNKNOWN` when none does. `FromCodeScan` below follows
      the enum's own loop and is proved to agree. */
  function FromCode(code: int): (r: DbErrorCode)
    ensures r != Unknown ==> Code(r) == code
    ensures Declared(r) && r != Unknown <==> 20001 <= code <= 20009
  {
    if code == 20001 then DuplicateUsername
    else if code == 20002 then RoleNotFound
    else if code == 20003 then UserNotFound
    else if code == 20004 then CannotDeleteLastAdmin
    else if code == 20005 then InvalidTagColor
    else if code == 20006 then TagNotFound
    else if code == 20007 then DuplicateTagOnSnippet
    else if code == 20008 then SnippetNotFound
    else if code == 20009 then TagNotOnSnippet
    else if code == FILE_NOT_FOUND_CODE then FileNotFound
    else if code == LANGUAGE_NOT_FOUND_CODE then LanguageNotFound
    else Unknown
  }

  /** The first constant of `values()` carrying `code` is what `FromCode` yields. */
  lemma FromCodeFirstCarrier(code: int, i: nat)
    requires i < |Values()| && Code(Values()[i]) == code
    requires forall j :: 0 <= j < i ==> Code(Values()[j]) != code
    ensures FromCode(code) == Values()[i]
  {
    var vs := Values();
    if i > 0 { assert Code(vs[0]) != code; }
    if i > 1 { assert Code(vs[1]) != code; }
    if i > 2 { assert Code(vs[2]) != code; }
    if i > 3 { assert Code(vs[3]) != code; }
    if i > 4 { assert Code(vs[4]) != code; }
    if i > 5 { assert Code(vs[5]) != code; }
    if i > 6 { assert Code(vs[6]) != code; }
    if i > 7 { assert Code(vs[7]) != code; }
    if i > 8 { assert Code(vs[8]) != code; }
    if i > 9 { assert Code(vs[9]) != code; }
    if i > 10 { assert Code(vs[10]) != code; }
  }

  /** A code no constant carries is unknown. */
  lemma FromCodeUnknownOtherwise(code: int)
    requires forall j :: 0 <= j < |Values()| ==> Code(Values()[j]) != code
    ensures FromCode(code) == Unknown
  {
    var vs := Values();
    assert Code(vs[0]) != code && Code(vs[1]) != code && Code(vs[2]) != code;
    assert Code(vs[3]) != code && Code(vs[4]) != code && Code(vs[5]) != code;
    assert Code(vs[6]) != code && Code(vs[7]) != code && Code(vs[8]) != code;
    assert Code(vs[9]) != code && Code(vs[10]) != code;
  }

  /** The enum's `fromCode` loop: the first constant of `values()` whose code
      is `code`, or `Unknown` once the scan is exhausted. */
  method FromCodeScan(code: int) returns (r: DbErrorCode)
    ensures r == FromCode(code)
  {
    var vs := Values();
    var i := 0;
    while i < |vs|
      invariant 0 <= i <= |vs| && vs == Values()
      invariant forall j :: 0 <= j < i ==> Code(vs[j]) != code
    {
      if Code(vs[i]) == code {
        FromCodeFirstCarrier(code, i);
        return vs[i];
      }
      i := i + 1;
    }
    FromCodeUnknownOtherwise(code);
    return Unknown;
  }

  /** Looking up a declared named constant's code gives the constant back, and
      so does looking up any constant's code that no other constant shares. */
  lemma FromCodeRoundTrip(v: DbErrorCode)
    ensures Declared(v) && v != Unknown ==> FromCode(Code(v)) == v
    ensures (forall w :: w in Values() && Code(w) == Code(v) ==> w == v) ==> FromCode(Code(v)) == v
  {
  }

  /** Whether the lookup of a constant's own code yields that constant, i.e.
      whether a switch arm for it can ever be taken. */
  predicate Reachable(v: DbErrorCode) {
    FromCode(Code(v)) == v
  }

  /** The two undeclared constants carry codes of their own: distinct from
      each other and from every declared code. */
  predicate FreshCodes() {
    && FILE_NOT_FOUND_CODE != 0 && !(20001 <= FILE_NOT_FOUND_CODE <= 20009)
    && LANGUAGE_NOT_FOUND_CODE != 0 && !(20001 <= LANGUAGE_NOT_FOUND_CODE <= 20009)
    && FILE_NOT_FOUND_CODE != LANGUAGE_NOT_FOUND_CODE
  }

  /** The undeclared constants are reachable exactly when their codes are not
      taken by a constant scanned before them; `UNKNOWN`'s code 0 reaches it
      unless an undeclared constant also carries 0. */
  lemma UndeclaredReachability()
    ensures Reachable(FileNotFound) <==> !(20001 <= FILE_NOT_FOUND_CODE <= 20009)
    ensures Reachable(LanguageNotFound) <==>
              !(20001 <= LANGUAGE_NOT_FOUND_CODE <= 20009) && LANGUAGE_NOT_FOUND_CODE != FILE_NOT_FOUND_CODE
    ensures Reachable(Unknown) <==> FILE_NOT_FOUND_CODE != 0 && LANGUAGE_NOT_FOUND_CODE != 0
    ensures FreshCodes() ==> forall v :: Reachable(v)
  {
    if FreshCodes() {
      forall v: DbErrorCode ensures Reachable(v) {
        FromCodeRoundTrip(v);
      }
    }
  }
}

=== FILE: entities.dfy ===
/** The records the core passes around: users and their roles, snippets, tags
    and files. Timestamps are opaque instants; nothing here compares them. */
module Entities {
  import opened Wrappers

  type UserId = int

  /** A point in time as stored by the database. */
  datatype Timestamp = Timestamp(instant: int)

  /** A one-way password hash. Plain text passwords are `string`s, so a value of
      this type is never a plain text password. */
  datatype PasswordHash = PasswordHash(encoded: string)

  /** A role name: the two named role constants, or any other name the role
      table holds (assumed different from both constants). */
  datatype RoleName = AdminRole | UserRole | OtherRole(name: string)

  datatype Role = Role(id: int, name: RoleName)

  datatype User = User(id: UserId, username: string, passwordHash: PasswordHash, created: Timestamp)

  datatype Snippet = Snippet(
    id: int, userId: UserId, title: string, description: string,
    created: Timestamp, updated: Timestamp)

  datatype Tag = Tag(id: int, userId: UserId, name: string, color: string, created: Timestamp)

  datatype File = File(
    id: int, snippetId: int, languageId: int, filename: string, content: string,
    created: Timestamp, updated: Timestamp)

  /** A search hit; the id lists are null when the database returns no array,
      and may hold null elements. */
  datatype DetailedSnippet = DetailedSnippet(
    id: int, userId: UserId, title: string, description: string,
    created: Timestamp, updated: Timestamp, relevance: int, fileCount: int,
    languageIds: Option<seq<Option<int>>>, tagIds: Option<seq<Option<int>>>)

  datatype SnippetSearchResult = SnippetSearchResult(snippets: seq<DetailedSnippet>, totalCount: int)
}

=== FILE: errors.dfy ===
/** The exceptions that travel through request handling, and the uniform
    error envelope they are turned into. */
module Errors {
  import opened Wrappers

  /** What `getBindingResult().getFieldError()` yields for a failed request
      validation: no field error at all, or one whose default message may be null. */
  datatype FieldErrorInfo = NoFieldError | FieldError(defaultMessage: Option<string>)

  /** One constructor per exception class that can surface while a request is
      authenticated, authorised or served by the modelled core. */
  datatype ErrorKind =
    // exceptions with a dedicated handler in the exception resolver
    | NoHandlerFound
    | BadCredentials
    | ArgumentNotValid(fieldError: FieldErrorInfo)
    | MessageNotReadable
    | UserNotFound
    | CannotDeleteLastAdmin
    | DuplicateUsername
    | InvalidTagColor
    | TagNotFound
    | DuplicateTagOnSnippet
    | TagNotOnSnippet
    | SnippetNotFound
    | TokenExpired
    | AuthorizationDenied
    // exceptions that only the catch-all handler sees
    | RoleNotFound
    | FileNotFound
    | LanguageNotFound
    | UsernameNotFound(message: string)
    | InternalLoadFailure
    | UserRepositoryFailure
    | SnippetRepositoryFailure
    | IllegalState
    | NumberFormat
    | NullReference
    | TokenRejected
    | ExpressionFailure
    | NoResourceFound
    | MethodNotSupported

  /** The error envelope `{message}` together with the HTTP status it is sent with. */
  datatype Response = Response(status: int, message: string)

  const NOT_FOUND_PHRASE := "Not Found"
  const BAD_REQUEST_PHRASE := "Bad Request"
  const INTERNAL_ERROR_PHRASE := "Internal Server Error"
}

=== FILE: exception_resolver.dfy ===
/** The controller advice that turns an exception thrown while serving a request
    into an HTTP status and an error envelope. */
module ExceptionResolver {
  import opened Wrappers
  import opened Errors

  /** The exception kinds for which the advice declares a handler of their own;
      every other kind falls through to the catch-all `Exception` handler. */
  predicate HasDedicatedHandler(e: ErrorKind) {
    || e.NoHandlerFound? || e.BadCredentials? || e.ArgumentNotValid?
    || e.MessageNotReadable? || e.UserNotFound? || e.CannotDeleteLastAdmin?
    || e.DuplicateUsername? || e.InvalidTagColor? || e.TagNotFound?
    || e.DuplicateTagOnSnippet? || e.TagNotOnSnippet? || e.SnippetNotFound?
    || e.TokenExpired? || e.AuthorizationDenied?
  }

  /** The message of a validation failure: the field's default message when both
      the field error and its message are present, the reason phrase otherwise. */
  predicate IsValidationMessage(f: FieldErrorInfo, m: string) {
    if f.FieldError? && f.defaultMessage.Some? then m == f.defaultMessage.value
    else m == BAD_REQUEST_PHRASE
  }

  /** The (status, message) pair the advice answers with for an exception kind. */
  function Resolve(e: ErrorKind): (r: Response)
    // Statuses, as an if-and-only-if per status class.
    ensures r.status == 500 <==> !HasDedicatedHandler(e)
    ensures r.status == 403 <==> e.TokenExpired?
    ensures r.status == 401 <==> e.BadCredentials? || e.AuthorizationDenied?
    ensures r.status == 404 <==> e.NoHandlerFound? || e.UserNotFound? || e.SnippetNotFound?
    ensures r.status == 400 <==>
              || e.ArgumentNotValid? || e.MessageNotReadable? || e.CannotDeleteLastAdmin?
              || e.DuplicateUsername? || e.InvalidTagColor? || e.TagNotFound?
              || e.DuplicateTagOnSnippet? || e.TagNotOnSnippet?
    // Messages: fixed phrases, never any detail of the failure.
    ensures r.status == 500 ==> r.message == INTERNAL_ERROR_PHRASE
    ensures e.ArgumentNotValid? ==> IsValidationMessage(e.fieldError, r.message)
    ensures e.BadCredentials? ==> r.message == "Invalid credentials"
    ensures e.TokenExpired? ==> r.message == "Token expired"
    ensures e.AuthorizationDenied? ==> r.message == "Unauthorized"
    ensures e.UserNotFound? ==> r.message == "User not found"
    ensures e.SnippetNotFound? ==> r.message == "Snippet not found"
    ensures e.TagNotFound? ==> r.message == "Tag not found"
    ensures e.NoHandlerFound? ==> r.message == NOT_FOUND_PHRASE
    ensures e.MessageNotReadable? ==> r.message == BAD_REQUEST_PHRASE
    ensures e.CannotDeleteLastAdmin? ==> r.message == "Cannot delete last admin user"
    ensures e.DuplicateUsername? ==> r.message == "Username already exists"
    ensures e.InvalidTagColor? ==> r.message == "Invalid color string"
    ensures e.DuplicateTagOnSnippet? ==> r.message == "Duplicate tag on snippet"
    ensures e.TagNotOnSnippet? ==> r.message == "Tag is not on snippet"
  {
    match e
    case NoHandlerFound => Response(404, NOT_FOUND_PHRASE)
    case BadCredentials => Response(401, "Invalid credentials")
    case ArgumentNotValid(f) =>
      (match f
       case NoFieldError => Response(400, BAD_REQUEST_PHRASE)
       case FieldError(m) =>
         if m.None? then Response(400, BAD_REQUEST_PHRASE) else Response(400, m.value))
    case MessageNotReadable => Response(400, BAD_REQUEST_PHRASE)
    case UserNotFound => Response(404, "User not found")
    case CannotDeleteLastAdmin => Response(400, "Cannot delete last admin user")
    case DuplicateUsername => Response(400, "Username already exists")
    case InvalidTagColor => Response(400, "Invalid color string")
    case TagNotFound => Response(400, "Tag not found")
    case DuplicateTagOnSnippet => Response(400, "Duplicate tag on snippet")
    case TagNotOnSnippet => Response(400, "Tag is not on snippet")
    case SnippetNotFound => Response(404, "Snippet not found")
    case TokenExpired => Response(403, "Token expired")
    case AuthorizationDenied => Response(401, "Unauthorized")
    case _ => Response(500, INTERNAL_ERROR_PHRASE)
  }

  /** An expired token and an authorisation denial are told apart by status and
      message, and a not-found tag is a client error while a not-found user or
      snippet is a 404. */
  lemma DistinguishableFailures()
    ensures Resolve(TokenExpired).status != Resolve(AuthorizationDenied).status
    ensures Resolve(TokenExpired).message != Resolve(AuthorizationDenied).message
    ensures Resolve(TagNotFound).status == 400
    ensures Resolve(UserNotFound).status == Resolve(SnippetNotFound).status == 404
  {
  }

  /** Every kind without a dedicated handler produces exactly the same envelope,
      so nothing about the failure leaks to the caller. */
  lemma CatchAllIsUniform(e1: ErrorKind, e2: ErrorKind)
    requires !HasDedicatedHandler(e1) && !HasDedicatedHandler(e2)
    ensures Resolve(e1) == Resolve(e2) == Response(500, INTERNAL_ERROR_PHRASE)
  {
  }
}

=== FILE: frontend.dfy ===
/** The single-page client's user store and the navigation guard that the
    router runs before every route change. */
module Frontend {
  import opened Wrappers

  /** The signed-in user as the client keeps it; `created` is milliseconds
      since the epoch. */
  datatype ClientUser = ClientUser(username: string, created: int, isAdmin: bool)

  datatype UserStore = UserStore(user: Option<ClientUser>)

  /** The placeholder user the store starts with: 2022-01-01T00:00:00Z, not
      an administrator. */
  const DEFAULT_USER := ClientUser("john", 1640995200000, false)

  function InitialStore(): (s: UserStore)
    ensures IsLoggedIn(s) && !IsAdmin(s)
  {
    UserStore(Some(DEFAULT_USER))
  }

  function IsLoggedIn(s: UserStore): (b: bool)
    ensures b <==> s.user.Some?
  {
    s.user != None
  }

  /** A missing user counts as not an administrator. */
  function IsAdmin(s: UserStore): (b: bool)
    ensures s.user.None? ==> !b
    ensures s.user.Some? ==> b == s.user.value.isAdmin
  {
    if s.user.Some? then s.user.value.isAdmin else false
  }

  /** Replaces the stored user; the store is signed in afterwards, as an
      administrator exactly when the new user is one. */
  function SetUser(s: UserStore, u: ClientUser): (t: UserStore)
    ensures t.user == Some(u)
    ensures IsLoggedIn(t)
    ensures IsAdmin(t) == u.isAdmin
  {
    s.(user := Some(u))
  }

  // ---------------------------------------------------------------------------
  // Routes

  datatype RouteName = Snippets | Tags | Profile | Admin | Login | Unmatched

  datatype Meta = Meta(requiresAuth: bool, requiresAdmin: bool)

  /** The route table's meta fields; the login route and unmatched paths
      carry none. */
  function MetaOf(r: RouteName): (m: Meta)
    ensures m.requiresAdmin ==> m.requiresAuth
    ensures m.requiresAdmin <==> r == Admin
    ensures !m.requiresAuth <==> r == Login || r == Unmatched
  {
    match r
    case Snippets => Meta(true, false)
    case Tags => Meta(true, false)
    case Profile => Meta(true, false)
    case Admin => Meta(true, true)
    case Login => Meta(false, false)
    case Unmatched => Meta(false, false)
  }

  /** ASCII case folding, as a case-insensitive pattern applies it. */
  function LowerChar(c: char): (d: char)
    ensures 'A' <= c <= 'Z' ==> d == (c as int + 32) as char
    ensures !('A' <= c <= 'Z') ==> d == c
  {
    if 'A' <= c <= 'Z' then (c as int + 32) as char else c
  }

  function Lower(s: string): (t: string)
    ensures |t| == |s|
    ensures forall i :: 0 <= i < |s| ==> t[i] == LowerChar(s[i])
  {
    seq(|s|, i requires 0 <= i < |s| => LowerChar(s[i]))
  }

  /** The form in which the router compares a path with the route table: the
      router's default matching is case-insensitive and not strict, so one
      trailing slash is optional. */
  function MatchForm(path: string): (m: string)
    ensures |path| > 1 && path[|path| - 1] == '/' ==> m == Lower(path[..|path| - 1])
    ensures !(|path| > 1 && path[|path| - 1] == '/') ==> m == Lower(path)
  {
    if |path| > 1 && path[|path| - 1] == '/' then Lower(path[..|path| - 1]) else Lower(path)
  }

  /** The route a path resolves to; the root path redirects to the snippets. */
  function RouteOf(path: string): (r: RouteName)
    ensures path == "/" ==> r == Snippets
    ensures r == Admin <==> MatchForm(path) == "/admin"
    ensures r == Login <==> MatchForm(path) == "/login"
  {
    var m := MatchForm(path);
    if m == "/" || m == "/snippets" then Snippets
    else if m == "/tags" then Tags
    else if m == "/profile" then Profile
    else if m == "/admin" then Admin
    else if m == "/login" then Login
    else Unmatched
  }

  /** Case does not matter to route matching. */
  lemma RouteIgnoresCase(path: string)
    ensures RouteOf(Lower(path)) == RouteOf(path)
  {
    var l := Lower(path);
    if |path| > 1 && path[|path| - 1] == '/' {
      assert Lower(l[..|l| - 1]) == Lower(path[..|path| - 1]);
    } else {
      assert Lower(l) == Lower(path);
    }
  }

  /** One trailing slash does not matter to route matching. */
  lemma RouteIgnoresTrailingSlash(path: string)
    requires |path| >= 1 && path[|path| - 1] != '/'
    ensures RouteOf(path + "/") == RouteOf(path)
  {
    assert (path + "/")[..|path|] == path;
  }

  /** So the administration page guards its variant spellings too. */
  lemma AdminVariants(s: UserStore)
    ensures RouteOf("/admin/") == Admin && RouteOf("/Admin") == Admin && RouteOf("/ADMIN/") == Admin
    ensures IsLoggedIn(s) && !IsAdmin(s) ==> Guard(RouteOf("/Admin/"), s) == RedirectTo(Snippets)
  {
    assert MatchForm("/Admin/") == "/admin";
    assert MatchForm("/admin/") == "/admin";
    assert MatchForm("/Admin") == "/admin";
    assert MatchForm("/ADMIN/") == "/admin";
  }

  datatype Navigation = Proceed | RedirectTo(route: RouteName)

  /** `beforeEach`: the sign-in check comes first, then the administrator
      check, then the bounce away from the login page. */
  function Guard(to: RouteName, s: UserStore): (n: Navigation)
    ensures MetaOf(to).requiresAuth && !IsLoggedIn(s) ==> n == RedirectTo(Login)
    ensures n.RedirectTo? ==> n.route == Login || n.route == Snippets
  {
    if MetaOf(to).requiresAuth && !IsLoggedIn(s) then RedirectTo(Login)
    else if MetaOf(to).requiresAdmin && !IsAdmin(s) then RedirectTo(Snippets)
    else if to == Login && IsLoggedIn(s) then RedirectTo(Snippets)
    else Proceed
  }

  /** Who may stay on a route: signed in where the route needs it, an
      administrator where it needs that, and not signed in on the login page. */
  predicate MayView(to: RouteName, s: UserStore) {
    && (to in {Snippets, Tags, Profile, Admin} ==> s.user.Some?)
    && (to == Admin ==> s.user.Some? && s.user.value.isAdmin)
    && (to == Login ==> s.user.None?)
  }

  /** The guard lets a navigation through exactly when the visitor may view
      the target route. */
  lemma GuardAdmitsIffMayView(to: RouteName, s: UserStore)
    ensures Guard(to, s) == Proceed <==> MayView(to, s)
  {
  }

  /** A signed-out visit to the administration page goes to the login page,
      not to the snippets: the sign-in check comes first. */
  lemma SignedOutAdminGoesToLogin(s: UserStore)
    requires s.user.None?
    ensures Guard(Admin, s) == RedirectTo(Login)
  {
  }

  /** Every redirect lands on a route the guard then lets through, so
      navigation never loops. */
  lemma RedirectsSettle(to: RouteName, s: UserStore)
    ensures Guard(to, s).RedirectTo? ==> Guard(Guard(to, s).route, s) == Proceed
  {
  }

  /** With the initial store every protected page but the administration page
      opens, and the login page bounces to the snippets. */
  lemma InitialNavigation()
    ensures Guard(Snippets, InitialStore()) == Proceed
    ensures Guard(Admin, InitialStore()) == RedirectTo(Snippets)
    ensures Guard(Login, InitialStore()) == RedirectTo(Snippets)
  {
  }
}

=== FILE: jwt_filter.dfy ===
/** The bearer-token filter that runs once per request before the route
    rules. The security context is passed in and returned explicitly; the
    token library is a pair of functions. */
module JwtRequestFilter {
  import opened Wrappers
  import opened Errors
  import opened Entities
  import opened UserDetails
  import opened UserDetailsService
  import ExceptionResolver

  /** An answer from the token library: a value, the expired-token exception,
      or any other exception it raises on a token it rejects. */
  datatype TokenAnswer<T> = Valid(value: T) | Expired | Rejected

  /** The token library: the subject claim of a token (possibly null), and
      whether a token is valid for a loaded principal. */
  datatype TokenCodec = TokenCodec(
    extractUsername: string -> TokenAnswer<Option<string>>,
    validateToken: (string, Principal) -> TokenAnswer<bool>)

  /** The authentication placed in the security context: the principal, no
      credentials, and the principal's authorities. */
  datatype Authentication = Authentication(principal: Principal, authorities: seq<Role>)

  /** How the filter ends: it hands the request on with the resulting context,
      it answers the request itself, or an exception leaves it. */
  datatype FilterOutcome =
    | Continue(context: Option<Authentication>)
    | ShortCircuit(response: Response)
    | Propagate(error: ErrorKind)

  const BEARER_PREFIX := "Bearer "

  /** The token of an `Authorization` header: the text after the 7-character
      prefix when the header is present and starts with it. */
  function BearerToken(header: Option<string>): (token: Option<string>)
    ensures token.Some? <==> header.Some? && |BEARER_PREFIX| <= |header.value|
                             && header.value[..|BEARER_PREFIX|] == BEARER_PREFIX
    ensures token.Some? ==> header.value == BEARER_PREFIX + token.value
  {
    if header.Some? && |BEARER_PREFIX| <= |header.value| && header.value[..|BEARER_PREFIX|] == BEARER_PREFIX
    then
      var token := header.value[|BEARER_PREFIX|..];
      assert header.value == BEARER_PREFIX + token;
      Some(token)
    else None
  }

  /** The response written when the token library reports an expired token. */
  function ExpiredResponse(): Response {
    ExceptionResolver.Resolve(TokenExpired)
  }

  /** One pass of the filter. The user name is extracted from any bearer token
      even when the context already holds an authentication; the principal is
      loaded, and an authentication attached, only when the context is empty. */
  function Filter(header: Option<string>, context: Option<Authentication>, codec: TokenCodec, dir: UserDirectory)
    : (o: FilterOutcome)
    // without a bearer token the filter does nothing
    ensures BearerToken(header).None? ==> o == Continue(context)
    // an expired token is answered with 403 "Token expired", and nothing else is
    ensures o.ShortCircuit? ==> o.response == Response(403, "Token expired")
    ensures BearerToken(header).Some? && codec.extractUsername(BearerToken(header).value).Expired?
            ==> o.ShortCircuit?
    // an authentication already in the context is never replaced
    ensures context.Some? && o.Continue? ==> o.context == context
    // the user is looked up only for a named subject and an empty context:
    // otherwise a readable token passes the request on untouched
    ensures BearerToken(header).Some? && codec.extractUsername(BearerToken(header).value).Valid?
            && (context.Some? || codec.extractUsername(BearerToken(header).value).value.None?)
            ==> o == Continue(context)
    // an authentication is attached only for a token that validates against
    // the principal loaded for its own subject, with that principal's roles
    ensures context.None? && o.Continue? && o.context.Some? ==>
              && BearerToken(header).Some?
              && codec.extractUsername(BearerToken(header).value).Valid?
              && codec.extractUsername(BearerToken(header).value).value.Some?
              && var name := codec.extractUsername(BearerToken(header).value).value.value;
                 && LoadUserByUsername(dir, name) == Ok(o.context.value.principal)
                 && codec.validateToken(BearerToken(header).value, o.context.value.principal) == Valid(true)
                 && o.context.value.authorities == o.context.value.principal.authorities
    // a token the library rejects leaves the filter as an exception
    ensures BearerToken(header).Some? && codec.extractUsername(BearerToken(header).value).Rejected?
            ==> o == Propagate(TokenRejected)
    // the expired-token answer comes from exactly two places: extraction, and
    // validation against the principal loaded into an empty context
    ensures o.ShortCircuit? <==>
              && BearerToken(header).Some?
              && var t := BearerToken(header).value;
                 || codec.extractUsername(t).Expired?
                 || (&& context.None?
                     && codec.extractUsername(t).Valid? && codec.extractUsername(t).value.Some?
                     && LoadUserByUsername(dir, codec.extractUsername(t).value.value).Ok?
                     && codec.validateToken(t, LoadUserByUsername(dir, codec.extractUsername(t).value.value).value).Expired?)
    // with an empty context and a named subject, a load failure leaves the
    // filter unchanged, and validation decides the rest
    ensures context.None? && BearerToken(header).Some?
            && codec.extractUsername(BearerToken(header).value).Valid?
            && codec.extractUsername(BearerToken(header).value).value.Some? ==>
              var t := BearerToken(header).value;
              var loaded := LoadUserByUsername(dir, codec.extractUsername(t).value.value);
              && (loaded.Err? ==> o == Propagate(loaded.error))
              && (loaded.Ok? && codec.validateToken(t, loaded.value).Rejected? ==> o == Propagate(TokenRejected))
              && (loaded.Ok? && codec.validateToken(t, loaded.value) == Valid(false) ==> o == Continue(None))
  {
    var token := BearerToken(header);
    if token.None? then Continue(context)
    else
      match codec.extractUsername(token.value)
      case Expired => ShortCircuit(ExpiredResponse())
      case Rejected => Propagate(TokenRejected)
      case Valid(username) =>
        if username.None? || context.Some? then Continue(context)
        else
          match LoadUserByUsername(dir, username.value)
          case Err(k) => Propagate(k)
          case Ok(principal) =>
            match codec.validateToken(token.value, principal)
            case Expired => ShortCircuit(ExpiredResponse())
            case Rejected => Propagate(TokenRejected)
            case Valid(ok) =>
              if ok then Continue(Some(Authentication(principal, principal.authorities)))
              else Continue(context)
  }

  /** The converse of the attachment clause: a token whose subject loads and
      which validates against that principal always authenticates an empty
      context. */
  lemma ValidTokenAuthenticates(header: Option<string>, codec: TokenCodec, dir: UserDirectory, p: Principal)
    requires BearerToken(header).Some?
    requires var t := BearerToken(header).value;
      && codec.extractUsername(t).Valid? && codec.extractUsername(t).value.Some?
      && LoadUserByUsername(dir, codec.extractUsername(t).value.value) == Ok(p)
      && codec.validateToken(t, p) == Valid(true)
    ensures Filter(header, None, codec, dir) == Continue(Some(Authentication(p, p.authorities)))
  {
  }

  /** The expired-token response differs from the authorization-denied one in
      both status and message, so a client can tell "log in again" from "not
      allowed". */
  lemma ExpiredIsDistinguishable(header: Option<string>, context: Option<Authentication>, codec: TokenCodec, dir: UserDirectory)
    requires Filter(header, context, codec, dir).ShortCircuit?
    ensures Filter(header, context, codec, dir).response.status != ExceptionResolver.Resolve(AuthorizationDenied).status
    ensures Filter(header, context, codec, dir).response.message != ExceptionResolver.Resolve(AuthorizationDenied).message
  {
  }

  /** A token for a name the database does not know does not leave the request
      unauthenticated: the service's `UsernameNotFoundException` escapes the
      filter. Only the expired-token exception is handed to the resolver, so
      this one is never answered by the controller advice. */
  lemma UnknownSubjectEscapes(header: Option<string>, codec: TokenCodec, dir: UserDirectory, name: string)
    requires BearerToken(header).Some?
    requires codec.extractUsername(BearerToken(header).value) == Valid(Some(name))
    requires LoadUserByUsername(dir, name) == Err(UsernameNotFound(USER_NOT_FOUND_MESSAGE))
    ensures Filter(header, None, codec, dir) == Propagate(UsernameNotFound(USER_NOT_FOUND_MESSAGE))
  {
  }
}

=== FILE: ownership.dfy ===
/** The two ownership checks the method-security rules call. Each fetches the
    resource through its service and compares its owner with the principal. */
module Ownership {
  import opened Wrappers
  import opened Errors
  import opened Entities
  import opened SqlErrorCode
  import opened ResultObjects
  import opened RepositoryCalls
  import opened UserDetails
  import SnippetRepository

  /** The owner check shared by both components: a missing resource allows
      the call (the operation itself then reports it), a present one allows it
      exactly when the principal owns it, and a failed lookup propagates. */
  function OwnerCheck(principalId: UserId, lookup: Result<Option<UserId>, ErrorKind>): (r: Result<bool, ErrorKind>)
    ensures r.Err? <==> lookup.Err?
    ensures r.Err? ==> r.error == lookup.error
    ensures r == Ok(false) <==> lookup.Ok? && lookup.value.Some? && lookup.value.value != principalId
    ensures lookup == Ok(None) ==> r == Ok(true)
  {
    match lookup
    case Err(k) => Err(k)
    case Ok(None) => Ok(true)
    case Ok(Some(owner)) => Ok(owner == principalId)
  }

  /** The owner of a fetched snippet, if any. */
  function OwnerOfSnippet(lookup: Result<Option<Snippet>, ErrorKind>): Result<Option<UserId>, ErrorKind> {
    match lookup
    case Err(k) => Err(k)
    case Ok(None) => Ok(None)
    case Ok(Some(s)) => Ok(Some(s.userId))
  }

  /** The owner of a fetched tag, if any. */
  function OwnerOfTag(lookup: Result<Option<Tag>, ErrorKind>): Result<Option<UserId>, ErrorKind> {
    match lookup
    case Err(k) => Err(k)
    case Ok(None) => Ok(None)
    case Ok(Some(t)) => Ok(Some(t.userId))
  }

  /** `snippetSecurity.isOwner`: the snippet is read through the repository's
      `getSnippet`. */
  function SnippetIsOwner(p: Principal, call: CallOutcome<Snippet>): (r: Result<bool, ErrorKind>)
    ensures r == Ok(true) <==>
              SnippetRepository.GetSnippet(call) == Ok(None)
              || (SnippetRepository.GetSnippet(call).Ok? && SnippetRepository.GetSnippet(call).value.Some?
                  && SnippetRepository.GetSnippet(call).value.value.userId == Id(p))
    ensures r.Err? <==> SnippetRepository.GetSnippet(call).Err?
    ensures SnippetRepository.GetSnippet(call).Err? ==> r == Err(SnippetRepository.GetSnippet(call).error)
  {
    OwnerCheck(Id(p), OwnerOfSnippet(SnippetRepository.GetSnippet(call)))
  }

  /** `tagSecurity.isOwner`: the tag is read through the tag service, whose
      lookup is taken as given. */
  function TagIsOwner(p: Principal, lookup: Result<Option<Tag>, ErrorKind>): (r: Result<bool, ErrorKind>)
    ensures r == Ok(true) <==>
              lookup == Ok(None) || (lookup.Ok? && lookup.value.Some? && lookup.value.value.userId == Id(p))
    ensures r.Err? <==> lookup.Err?
    ensures lookup.Err? ==> r == Err(lookup.error)
  {
    OwnerCheck(Id(p), OwnerOfTag(lookup))
  }

  /** A snippet stored for another user is never owned; a snippet the
      database reports missing raises snippet-not-found, not a permission. */
  lemma SnippetOwnership(p: Principal, s: Snippet, e: DataAccessError)
    ensures SnippetIsOwner(p, Returned(RowsObject([s]))) == Ok(s.userId == Id(p))
    ensures SnippetIsOwner(p, Returned(RowsObject([]))) == Ok(true)
    ensures GetSqlErrorCode(e) == Code(20008) ==> SnippetIsOwner(p, Threw(DataAccess(e))) == Err(SnippetNotFound)
  {
    SnippetRepository.SingleRowResults([s], []);
    SnippetRepository.SingleRowResults([], []);
    SnippetRepository.GetSnippetOutcomes(e);
  }
}

=== FILE: repository_calls.dfy ===
/** The shapes of failure handling shared by the database repositories. A
    stored procedure call either returns its result object or throws; each
    repository method wraps the call (and sometimes the unpacking of the
    result) in one of a handful of try/catch arrangements, modelled here once. */
module RepositoryCalls {
  import opened Wrappers
  import opened Errors
  import opened SqlErrorCode
  import opened ResultObjects
  import DbErrorCodes

  /** What a stored procedure call can throw: a data-access exception, or any
      other exception (for instance building an array argument). */
  datatype Failure = DataAccess(error: DataAccessError) | NonDataAccess

  /** The outcome of one stored procedure call, with `T` the row class. */
  datatype CallOutcome<T> = Returned(result: ResultObject<T>) | Threw(failure: Failure)

  /** The exception leaving `catch (DataAccessException e) { switch
      (fromCode(getSqlErrorCode(e))) … }`: the arm for the decoded constant, or
      the number-format failure that reading the code can itself throw. */
  function Switch(e: DataAccessError, arms: DbErrorCodes.DbErrorCode -> ErrorKind): (k: ErrorKind)
    ensures GetSqlErrorCode(e) == NumberFormatFailure ==> k == NumberFormat
    ensures GetSqlErrorCode(e) == Code(0) && DbErrorCodes.Reachable(DbErrorCodes.Unknown) ==> k == arms(DbErrorCodes.Unknown)
  {
    SwitchOn(GetSqlErrorCode(e), arms)
  }

  /** Raising the code of a constant the lookup reaches takes that constant's arm. */
  lemma SwitchTakesArm(e: DataAccessError, arms: DbErrorCodes.DbErrorCode -> ErrorKind, v: DbErrorCodes.DbErrorCode)
    requires GetSqlErrorCode(e) == Code(DbErrorCodes.Code(v)) && DbErrorCodes.Reachable(v)
    ensures Switch(e, arms) == arms(v)
  {
  }

  /** The arm a switch takes once the code has been read. */
  function SwitchOn(reading: CodeReading, arms: DbErrorCodes.DbErrorCode -> ErrorKind): ErrorKind
  {
    match reading
    case NumberFormatFailure => NumberFormat
    case Code(c) => arms(DbErrorCodes.FromCode(c))
  }

  /** A single-row call whose unpacking sits inside the try of a switch catch
      and a catch-all: every failure, unpacking included, is translated. */
  function RowInTry<T>(call: CallOutcome<T>, arms: DbErrorCodes.DbErrorCode -> ErrorKind, fallback: ErrorKind)
    : (r: Result<Option<T>, ErrorKind>)
    ensures call == Threw(NonDataAccess) ==> r == Err(fallback)
    ensures call.Threw? && call.failure.DataAccess? ==> r == Err(Switch(call.failure.error, arms))
    ensures call.Returned? ==> (r.Ok? <==> GetListFromResultObject(call.result).Ok?)
    ensures call.Returned? && r.Err? ==> r.error == fallback
    ensures r.Ok? ==>
              && call.Returned? && GetListFromResultObject(call.result).Ok?
              && var rows := GetListFromResultObject(call.result).value;
                 && (r.value.None? <==> |rows| == 0)
                 && (r.value.Some? ==> r.value.value == rows[0])
  {
    match call
    case Threw(DataAccess(e)) => Err(Switch(e, arms))
    case Threw(NonDataAccess) => Err(fallback)
    case Returned(obj) =>
      var rows := GetListFromResultObject(obj);
      if rows.Err? then Err(fallback) else Ok(FirstOrNull(rows.value))
  }

  /** A single-row call with the switch catch and catch-all around the call
      alone: an unpacking failure escapes untranslated. */
  function RowAfterSwitch<T>(call: CallOutcome<T>, arms: DbErrorCodes.DbErrorCode -> ErrorKind, fallback: ErrorKind)
    : (r: Result<Option<T>, ErrorKind>)
    ensures call == Threw(NonDataAccess) ==> r == Err(fallback)
    ensures call.Threw? && call.failure.DataAccess? ==> r == Err(Switch(call.failure.error, arms))
    ensures call.Returned? ==> (r.Ok? <==> GetListFromResultObject(call.result).Ok?)
    ensures call.Returned? && r.Err? ==> r.error == IllegalState
    ensures r.Ok? ==>
              && call.Returned? && GetListFromResultObject(call.result).Ok?
              && var rows := GetListFromResultObject(call.result).value;
                 && (r.value.None? <==> |rows| == 0)
                 && (r.value.Some? ==> r.value.value == rows[0])
  {
    match call
    case Threw(DataAccess(e)) => Err(Switch(e, arms))
    case Threw(NonDataAccess) => Err(fallback)
    case Returned(obj) =>
      var rows := GetListFromResultObject(obj);
      if rows.Err? then Err(rows.error) else Ok(FirstOrNull(rows.value))
  }

  /** A single-row lookup with one catch-all that compares the raw code with a
      single not-found code; unpacking failures escape untranslated. */
  function RowAfterCodeCheck<T>(call: CallOutcome<T>, notFoundCode: int, notFound: ErrorKind, fallback: ErrorKind)
    : (r: Result<Option<T>, ErrorKind>)
    ensures call == Threw(NonDataAccess) ==> r == Err(fallback)
    ensures call.Threw? && call.failure.DataAccess? ==>
              var reading := GetSqlErrorCode(call.failure.error);
              && (reading == NumberFormatFailure ==> r == Err(NumberFormat))
              && (reading == Code(notFoundCode) ==> r == Err(notFound))
              && (reading.Code? && reading.value != notFoundCode ==> r == Err(fallback))
    ensures call.Returned? ==> (r.Ok? <==> GetListFromResultObject(call.result).Ok?)
    ensures call.Returned? && r.Err? ==> r.error == IllegalState
    ensures r.Ok? ==>
              && call.Returned? && GetListFromResultObject(call.result).Ok?
              && var rows := GetListFromResultObject(call.result).value;
                 && (r.value.None? <==> |rows| == 0)
                 && (r.value.Some? ==> r.value.value == rows[0])
  {
    match call
    case Threw(DataAccess(e)) =>
      (match GetSqlErrorCode(e)
       case NumberFormatFailure => Err(NumberFormat)
       case Code(c) => if c == notFoundCode then Err(notFound) else Err(fallback))
    case Threw(NonDataAccess) => Err(fallback)
    case Returned(obj) =>
      var rows := GetListFromResultObject(obj);
      if rows.Err? then Err(rows.error) else Ok(FirstOrNull(rows.value))
  }

  /** A call without a result, wrapped in a switch catch and a catch-all. */
  function NoRowWithSwitch<T>(call: CallOutcome<T>, arms: DbErrorCodes.DbErrorCode -> ErrorKind, fallback: ErrorKind)
    : (r: Result<(), ErrorKind>)
    ensures call == Threw(NonDataAccess) ==> r == Err(fallback)
    ensures call.Threw? && call.failure.DataAccess? ==> r == Err(Switch(call.failure.error, arms))
    ensures r.Ok? <==> call.Returned?
  {
    match call
    case Threw(DataAccess(e)) => Err(Switch(e, arms))
    case Threw(NonDataAccess) => Err(fallback)
    case Returned(_) => Ok(())
  }

  /** A list call with one catch-all around both the call and the unpacking. */
  function ListInTry<T>(call: CallOutcome<T>, fallback: ErrorKind): (r: Result<seq<T>, ErrorKind>)
    ensures r.Err? ==> r.error == fallback
    ensures r.Ok? <==> call.Returned? && GetListFromResultObject(call.result).Ok?
    ensures r.Ok? ==> r.value == GetListFromResultObject(call.result).value
  {
    match call
    case Threw(_) => Err(fallback)
    case Returned(obj) =>
      var rows := GetListFromResultObject(obj);
      if rows.Err? then Err(fallback) else rows
  }

  /** A list call with a catch-all around the call alone. */
  function ListAfterCatch<T>(call: CallOutcome<T>, fallback: ErrorKind): (r: Result<seq<T>, ErrorKind>)
    ensures call.Threw? ==> r == Err(fallback)
    ensures call.Returned? && r.Err? ==> r.error == IllegalState
    ensures r.Ok? <==> call.Returned? && GetListFromResultObject(call.result).Ok?
    ensures r.Ok? ==> r.value == GetListFromResultObject(call.result).value
  {
    match call
    case Threw(_) => Err(fallback)
    case Returned(obj) => GetListFromResultObject(obj)
  }

  /** On a well-formed cursor every shape agrees: the single-row shapes give
      the first row or null, the list shapes the rows themselves. */
  lemma {:induction false} ShapesOnRows<T>(rows: seq<T>, arms: DbErrorCodes.DbErrorCode -> ErrorKind,
                                           notFoundCode: int, notFound: ErrorKind, fallback: ErrorKind)
    ensures RowInTry(Returned(RowsObject(rows)), arms, fallback) == Ok(FirstOrNull(rows))
    ensures RowAfterSwitch(Returned(RowsObject(rows)), arms, fallback) == Ok(FirstOrNull(rows))
    ensures RowAfterCodeCheck(Returned(RowsObject(rows)), notFoundCode, notFound, fallback) == Ok(FirstOrNull(rows))
    ensures ListInTry(Returned(RowsObject(rows)), fallback) == Ok(rows)
    ensures ListAfterCatch(Returned(RowsObject(rows)), fallback) == Ok(rows)
  {
    RowsRoundTrip(rows);
  }

  /** On a malformed cursor the shapes differ by where the unpacking sits:
      inside the `try` it becomes the operation's fallback failure, after it
      the illegal-state failure escapes untranslated. */
  lemma ShapesOnMalformed<T>(obj: ResultObject<T>, arms: DbErrorCodes.DbErrorCode -> ErrorKind,
                             notFoundCode: int, notFound: ErrorKind, fallback: ErrorKind)
    requires GetListFromResultObject(obj).Err?
    ensures RowInTry(Returned(obj), arms, fallback) == Err(fallback)
    ensures ListInTry(Returned(obj), fallback) == Err(fallback)
    ensures RowAfterSwitch(Returned(obj), arms, fallback) == Err(IllegalState)
    ensures RowAfterCodeCheck(Returned(obj), notFoundCode, notFound, fallback) == Err(IllegalState)
    ensures ListAfterCatch(Returned(obj), fallback) == Err(IllegalState)
  {
  }
}

=== FILE: request_authorization.dfy ===
/** Request admission: the filter, the route rule that every path except the
    login endpoint needs an authenticated principal, and the method-security
    rule of each endpoint. The security context starts empty on every request
    (sessions are stateless), so nothing carries over between requests. */
module RequestAuthorization {
  import opened Wrappers
  import opened Errors
  import opened Entities
  import opened RepositoryCalls
  import opened UserDetails
  import opened UserDetailsService
  import opened JwtRequestFilter
  import opened Ownership
  import ExceptionResolver
  import SnippetRepository
  import ResultObjects
  import SqlErrorCode

  /** The endpoints of the controllers, with their path variables. */
  datatype Endpoint =
    // authentication
    | Login | Register | CurrentUser
    // snippets
    | CreateSnippet | SearchSnippets
    | GetSnippet(id: int) | DeleteSnippet(id: int) | UpdateSnippet(id: int) | GetTagsOfSnippet(id: int)
    | AddTagToSnippet(id: int, tagId: int) | RemoveTagFromSnippet(id: int, tagId: int)
    | CreateFile(id: int) | GetFiles(id: int) | UpdateFile(id: int, fileId: int) | DeleteFile(id: int, fileId: int)
    // tags
    | CreateTag | GetTags | UpdateTag(tagId: int) | DeleteTag(tagId: int) | GetTag(tagId: int)
    // users (administration)
    | GetUsers | GetUser(userId: int) | DeleteUser(userId: int) | UpdateUser(userId: int)
    | GetUserByUsername(username: string)
    // a request no handler method matches, with the exception the dispatcher
    // raises for it
    | Unmapped(path: string, raised: DispatchFailure)

  /** Why the dispatcher finds no handler: no mapping at all with
      `NoHandlerFoundException` enabled, no static resource either (the
      `NoResourceFoundException` of the resource handler), or a mapped path
      asked with a method it does not accept. Which of the first two an unknown
      path raises depends on the framework version and configuration, so it
      is part of the request. */
  datatype DispatchFailure = NoMapping | NoStaticResource | WrongMethod

  /** The exception a dispatch failure surfaces as. */
  function DispatchError(d: DispatchFailure): (k: ErrorKind)
    ensures k == NoHandlerFound <==> d == NoMapping
    ensures k == NoResourceFound <==> d == NoStaticResource
    ensures k == MethodNotSupported <==> d == WrongMethod
  {
    match d
    case NoMapping => NoHandlerFound
    case NoStaticResource => NoResourceFound
    case WrongMethod => MethodNotSupported
  }

  /** The only path the route rule leaves open. */
  const LOGIN_PATH := "/api/auth/login"

  /** The route rule: the login path is open to everyone, any other request
      needs an authenticated principal. */
  function PermitAll(e: Endpoint): (b: bool)
    ensures b && !e.Unmapped? <==> e.Login?
    ensures b ==> RuleOf(e) == NoRule
  {
    e.Login? || (e.Unmapped? && e.path == LOGIN_PATH)
  }

  /** The method-security rule an endpoint carries. */
  datatype Rule =
    | NoRule
    | AdminOnly
    | SnippetOwner(snippetId: int)
    | SnippetAndTagOwner(snippetId: int, tagId: int)
    | TagOwner(tagId: int)
    | ReturnedTagOwned(tagId: int)

  function RuleOf(e: Endpoint): (r: Rule)
    ensures r == AdminOnly <==>
              e.Register? || e.GetUsers? || e.GetUser? || e.DeleteUser? || e.UpdateUser? || e.GetUserByUsername?
    ensures r.SnippetAndTagOwner? <==> e.AddTagToSnippet? || e.RemoveTagFromSnippet?
    ensures r == NoRule <==>
              e.Login? || e.CurrentUser? || e.CreateSnippet? || e.SearchSnippets? || e.CreateTag? || e.GetTags? || e.Unmapped?
  {
    match e
    case Register => AdminOnly
    case GetUsers => AdminOnly
    case GetUser(_) => AdminOnly
    case DeleteUser(_) => AdminOnly
    case UpdateUser(_) => AdminOnly
    case GetUserByUsername(_) => AdminOnly
    case GetSnippet(id) => SnippetOwner(id)
    case DeleteSnippet(id) => SnippetOwner(id)
    case UpdateSnippet(id) => SnippetOwner(id)
    case GetTagsOfSnippet(id) => SnippetOwner(id)
    case CreateFile(id) => SnippetOwner(id)
    case GetFiles(id) => SnippetOwner(id)
    case UpdateFile(id, _) => SnippetOwner(id)
    case DeleteFile(id, _) => SnippetOwner(id)
    case AddTagToSnippet(id, tagId) => SnippetAndTagOwner(id, tagId)
    case RemoveTagFromSnippet(id, tagId) => SnippetAndTagOwner(id, tagId)
    case UpdateTag(tagId) => TagOwner(tagId)
    case DeleteTag(tagId) => TagOwner(tagId)
    case GetTag(tagId) => ReturnedTagOwned(tagId)
    case _ => NoRule
  }

  /** What the ownership checks read: the snippet procedure's outcome per
      snippet id, and the tag service's answer per tag id. */
  datatype Resources = Resources(
    snippets: int -> CallOutcome<Snippet>,
    tags: int -> Result<Option<Tag>, ErrorKind>)

  /** The pre-invocation rule. In the two-owner rule the tag is only looked up
      once the snippet check has allowed the call. */
  function PreAuthorize(rule: Rule, p: Principal, res: Resources): (r: Result<bool, ErrorKind>)
    ensures rule.AdminOnly? ==> r == Ok(IsAdmin(p))
    ensures rule.SnippetAndTagOwner? ==>
              (r == Ok(true) <==> SnippetIsOwner(p, res.snippets(rule.snippetId)) == Ok(true)
                                  && TagIsOwner(p, res.tags(rule.tagId)) == Ok(true))
    ensures rule.SnippetAndTagOwner? && SnippetIsOwner(p, res.snippets(rule.snippetId)) != Ok(true) ==>
              r == SnippetIsOwner(p, res.snippets(rule.snippetId))
    ensures rule.SnippetAndTagOwner? && SnippetIsOwner(p, res.snippets(rule.snippetId)) == Ok(true) ==>
              r == TagIsOwner(p, res.tags(rule.tagId))
    ensures rule.SnippetOwner? ==> r == SnippetIsOwner(p, res.snippets(rule.snippetId))
    ensures rule.TagOwner? ==> r == TagIsOwner(p, res.tags(rule.tagId))
    // `getTag` is checked after the call, and the other endpoints not at all
    ensures rule.NoRule? || rule.ReturnedTagOwned? ==> r == Ok(true)
  {
    match rule
    case NoRule => Ok(true)
    case ReturnedTagOwned(_) => Ok(true)
    case AdminOnly => Ok(IsAdmin(p))
    case SnippetOwner(id) => SnippetIsOwner(p, res.snippets(id))
    case TagOwner(id) => TagIsOwner(p, res.tags(id))
    case SnippetAndTagOwner(id, tagId) =>
      var first := SnippetIsOwner(p, res.snippets(id));
      if first != Ok(true) then first else TagIsOwner(p, res.tags(tagId))
  }

  /** How admission ends: the handler runs with the given principal, the
      route rule rejects an anonymous request, an error response is written,
      or an exception leaves the filter chain unhandled. */
  datatype Outcome =
    | Served(principal: Option<Principal>)
    | Unauthenticated
    | Responded(response: Response)
    | Escaped(error: ErrorKind)

  /** Method security around the handler of `e` for principal `p`. */
  function Authorize(e: Endpoint, p: Principal, res: Resources): (o: Outcome)
    // the pre-invocation rule: a failing check is resolved, a refusal is 401
    ensures var pre := PreAuthorize(RuleOf(e), p, res);
      && (pre.Err? ==> o == Responded(ExceptionResolver.Resolve(pre.error)))
      && (pre == Ok(false) ==> o == Responded(Response(401, "Unauthorized")))
    // the post-invocation rule of `getTag`, read off the returned body
    ensures PreAuthorize(RuleOf(e), p, res) == Ok(true) && e.GetTag? ==>
              var tag := res.tags(e.tagId);
              && (tag.Err? ==> o == Responded(ExceptionResolver.Resolve(tag.error)))
              && (tag == Ok(None) ==> o == Responded(Response(500, INTERNAL_ERROR_PHRASE)))
              && (tag.Ok? && tag.value.Some? && tag.value.value.userId != Id(p) ==>
                    o == Responded(Response(401, "Unauthorized")))
    ensures o.Served? <==>
              && PreAuthorize(RuleOf(e), p, res) == Ok(true)
              && (e.GetTag? ==> res.tags(e.tagId).Ok? && res.tags(e.tagId).value.Some?
                                && res.tags(e.tagId).value.value.userId == Id(p))
    ensures o.Served? ==> o.principal == Some(p)
    ensures o.Served? || o.Responded?
  {
    var pre := PreAuthorize(RuleOf(e), p, res);
    if pre.Err? then Responded(ExceptionResolver.Resolve(pre.error))
    else if !pre.value then Responded(ExceptionResolver.Resolve(AuthorizationDenied))
    else if e.GetTag? then
      // the post-invocation rule reads the owner off the returned body
      match res.tags(e.tagId)
      case Err(k) => Responded(ExceptionResolver.Resolve(k))
      case Ok(None) => Responded(ExceptionResolver.Resolve(ExpressionFailure))
      case Ok(Some(t)) =>
        if t.userId == Id(p) then Served(Some(p))
        else Responded(ExceptionResolver.Resolve(AuthorizationDenied))
    else Served(Some(p))
  }

  /** One request from its `Authorization` header to the handler. */
  function HandleRequest(e: Endpoint, authorization: Option<string>, codec: TokenCodec, dir: UserDirectory, res: Resources)
    : (o: Outcome)
    ensures o == Unauthenticated ==> !PermitAll(e)
    ensures o.Served? && !PermitAll(e) ==> o.principal.Some?
    ensures o.Served? ==> !e.Unmapped?
    // a request that passes the filter and the route rule but matches no
    // handler is answered from the dispatcher's exception
    ensures e.Unmapped? && Filter(authorization, None, codec, dir).Continue?
            && (Filter(authorization, None, codec, dir).context.Some? || PermitAll(e))
            ==> o == Responded(ExceptionResolver.Resolve(DispatchError(e.raised)))
  {
    match Filter(authorization, None, codec, dir)
    case ShortCircuit(response) => Responded(response)
    case Propagate(k) => Escaped(k)
    case Continue(context) =>
      if context.None? then
        if !PermitAll(e) then Unauthenticated
        else if e.Unmapped? then Responded(ExceptionResolver.Resolve(DispatchError(e.raised)))
        else Served(None)
      else if e.Unmapped? then Responded(ExceptionResolver.Resolve(DispatchError(e.raised)))
      else Authorize(e, context.value.principal, res)
  }

  // ---------------------------------------------------------------------------
  // The access policy, stated on the data

  /** The snippet is missing (read as null) or belongs to `p`. */
  predicate MayUseSnippet(p: Principal, res: Resources, id: int) {
    var s := SnippetRepository.GetSnippet(res.snippets(id));
    s == Ok(None) || (s.Ok? && s.value.Some? && s.value.value.userId == Id(p))
  }

  /** The tag is missing (read as null) or belongs to `p`. */
  predicate MayUseTag(p: Principal, res: Resources, tagId: int) {
    var t := res.tags(tagId);
    t == Ok(None) || (t.Ok? && t.value.Some? && t.value.value.userId == Id(p))
  }

  /** Who may use an endpoint: administrators the administration endpoints;
      owners (or anyone, for a missing resource) the snippet- and tag-scoped
      ones; the owner of an existing tag the single-tag read; anyone
      authenticated the rest. */
  predicate Allowed(e: Endpoint, p: Principal, res: Resources) {
    match e
    case Register => IsAdmin(p)
    case GetUsers => IsAdmin(p)
    case GetUser(_) => IsAdmin(p)
    case DeleteUser(_) => IsAdmin(p)
    case UpdateUser(_) => IsAdmin(p)
    case GetUserByUsername(_) => IsAdmin(p)
    case GetSnippet(id) => MayUseSnippet(p, res, id)
    case DeleteSnippet(id) => MayUseSnippet(p, res, id)
    case UpdateSnippet(id) => MayUseSnippet(p, res, id)
    case GetTagsOfSnippet(id) => MayUseSnippet(p, res, id)
    case CreateFile(id) => MayUseSnippet(p, res, id)
    case GetFiles(id) => MayUseSnippet(p, res, id)
    case UpdateFile(id, _) => MayUseSnippet(p, res, id)
    case DeleteFile(id, _) => MayUseSnippet(p, res, id)
    case AddTagToSnippet(id, tagId) => MayUseSnippet(p, res, id) && MayUseTag(p, res, tagId)
    case RemoveTagFromSnippet(id, tagId) => MayUseSnippet(p, res, id) && MayUseTag(p, res, tagId)
    case UpdateTag(tagId) => MayUseTag(p, res, tagId)
    case DeleteTag(tagId) => MayUseTag(p, res, tagId)
    case GetTag(tagId) => res.tags(tagId).Ok? && res.tags(tagId).value.Some? && res.tags(tagId).value.value.userId == Id(p)
    case Unmapped(_, _) => false
    case _ => true
  }

  /** For an authenticated principal, method security lets the handler run
      exactly when the policy allows it. */
  lemma AuthorizeMatchesPolicy(e: Endpoint, p: Principal, res: Resources)
    ensures Authorize(e, p, res) == Served(Some(p)) <==> Allowed(e, p, res) || e.Unmapped?
  {
  }

  /** End to end: a request whose token authenticates `p` reaches its handler
      exactly when the policy allows `p` to use the endpoint. */
  lemma AdmissionMatchesPolicy(e: Endpoint, header: Option<string>, codec: TokenCodec, dir: UserDirectory,
                               res: Resources, p: Principal)
    requires Filter(header, None, codec, dir) == Continue(Some(Authentication(p, p.authorities)))
    ensures HandleRequest(e, header, codec, dir, res) == Served(Some(p)) <==> Allowed(e, p, res)
  {
    AuthorizeMatchesPolicy(e, p, res);
  }

  // ---------------------------------------------------------------------------
  // Scenarios

  /** A snippet-scoped endpoint applied to another user's snippet is refused
      with 401 before the handler runs. */
  lemma CrossUserSnippetDenied(e: Endpoint, p: Principal, res: Resources, s: Snippet)
    requires RuleOf(e).SnippetOwner? || RuleOf(e).SnippetAndTagOwner?
    requires res.snippets(RuleOf(e).snippetId) == Returned(ResultObjects.RowsObject([s]))
    requires s.userId != Id(p)
    ensures Authorize(e, p, res) == Responded(Response(401, "Unauthorized"))
  {
    ResultObjects.RowsRoundTrip([s]);
  }

  /** Attaching or detaching a tag needs both resources owned; when the
      snippet check refuses, the tag is never consulted. */
  lemma TagNotConsultedAfterSnippetRefusal(snippetId: int, tagId: int, p: Principal, res: Resources,
                                           otherTags: int -> Result<Option<Tag>, ErrorKind>)
    requires SnippetIsOwner(p, res.snippets(snippetId)) != Ok(true)
    ensures Authorize(AddTagToSnippet(snippetId, tagId), p, res)
            == Authorize(AddTagToSnippet(snippetId, tagId), p, res.(tags := otherTags))
    ensures !Authorize(RemoveTagFromSnippet(snippetId, tagId), p, res).Served?
  {
  }

  /** An own snippet with another user's tag is still refused. */
  lemma ForeignTagOnOwnSnippetDenied(snippetId: int, tagId: int, p: Principal, res: Resources, s: Snippet, t: Tag)
    requires res.snippets(snippetId) == Returned(ResultObjects.RowsObject([s]))
    requires s.userId == Id(p)
    requires res.tags(tagId) == Ok(Some(t)) && t.userId != Id(p)
    ensures Authorize(AddTagToSnippet(snippetId, tagId), p, res) == Responded(Response(401, "Unauthorized"))
  {
    ResultObjects.RowsRoundTrip([s]);
  }

  /** An expired token is answered with 403 on every endpoint, the open login
      endpoint included, whatever the handler would have done. */
  lemma ExpiredTokenEverywhere(e: Endpoint, header: Option<string>, codec: TokenCodec, dir: UserDirectory, res: Resources)
    requires BearerToken(header).Some?
    requires codec.extractUsername(BearerToken(header).value).Expired?
    ensures HandleRequest(e, header, codec, dir, res) == Responded(Response(403, "Token expired"))
  {
  }

  /** A token naming a user the database does not know ends every request,
      the open login endpoint included, with the exception leaving the filter
      chain: no handler runs and the controller advice writes no response. */
  lemma UnknownSubjectEverywhere(e: Endpoint, header: Option<string>, codec: TokenCodec, dir: UserDirectory,
                                 res: Resources, name: string)
    requires BearerToken(header).Some?
    requires codec.extractUsername(BearerToken(header).value) == Valid(Some(name))
    requires LoadUserByUsername(dir, name) == Err(UsernameNotFound(USER_NOT_FOUND_MESSAGE))
    ensures HandleRequest(e, header, codec, dir, res) == Escaped(UsernameNotFound(USER_NOT_FOUND_MESSAGE))
  {
    UnknownSubjectEscapes(header, codec, dir, name);
  }

  /** A principal without the administrator role is refused the
      administration endpoints with 401. */
  lemma NonAdminRefused(e: Endpoint, p: Principal, res: Resources)
    requires RuleOf(e) == AdminOnly
    requires forall i :: 0 <= i < |p.authorities| ==> p.authorities[i].name != AdminRole
    ensures Authorize(e, p, res) == Responded(Response(401, "Unauthorized"))
  {
  }

  /** Without a token only the login path gets through the route rule, and
      its handler runs with no principal. */
  lemma AnonymousRequests(e: Endpoint, codec: TokenCodec, dir: UserDirectory, res: Resources)
    ensures !PermitAll(e) ==> HandleRequest(e, None, codec, dir, res) == Unauthenticated
    ensures HandleRequest(Login, None, codec, dir, res) == Served(None)
  {
  }

  /** Reading a single tag: another user's tag is refused with 401 after the
      read, and a missing tag fails the post-check expression (500). */
  lemma SingleTagRead(tagId: int, p: Principal, res: Resources)
    ensures res.tags(tagId).Ok? && res.tags(tagId).value.Some? && res.tags(tagId).value.value.userId != Id(p)
            ==> Authorize(GetTag(tagId), p, res) == Responded(Response(401, "Unauthorized"))
    ensures res.tags(tagId) == Ok(None)
            ==> Authorize(GetTag(tagId), p, res) == Responded(Response(500, INTERNAL_ERROR_PHRASE))
  {
  }

  /** The database's snippet-not-found code, raised while an ownership rule
      reads the snippet, reaches the client as 404 "Snippet not found" on every
      snippet-scoped endpoint, through the ownership check and the advice. */
  lemma MissingSnippetIs404(e: Endpoint, p: Principal, res: Resources, err: SqlErrorCode.DataAccessError)
    requires RuleOf(e).SnippetOwner? || RuleOf(e).SnippetAndTagOwner?
    requires res.snippets(RuleOf(e).snippetId) == Threw(DataAccess(err))
    requires SqlErrorCode.GetSqlErrorCode(err) == SqlErrorCode.Code(20008)
    ensures Authorize(e, p, res) == Responded(Response(404, "Snippet not found"))
  {
    SnippetRepository.GetSnippetOutcomes(err);
  }

  /** A request no handler matches is answered by the advice from the
      dispatcher's exception: 404 "Not Found" only for `NoHandlerFoundException`;
      a missing static resource and a wrong method fall to the catch-all 500.
      So `GET /api/auth/login` with no credentials is a 500. */
  lemma DispatchFailureAnswers(path: string, header: Option<string>, codec: TokenCodec, dir: UserDirectory,
                               res: Resources)
    requires Filter(header, None, codec, dir).Continue?
    requires Filter(header, None, codec, dir).context.Some? || path == LOGIN_PATH
    ensures HandleRequest(Unmapped(path, NoMapping), header, codec, dir, res) == Responded(Response(404, NOT_FOUND_PHRASE))
    ensures HandleRequest(Unmapped(path, NoStaticResource), header, codec, dir, res)
            == Responded(Response(500, INTERNAL_ERROR_PHRASE))
    ensures HandleRequest(Unmapped(path, WrongMethod), header, codec, dir, res)
            == Responded(Response(500, INTERNAL_ERROR_PHRASE))
    ensures HandleRequest(Unmapped(LOGIN_PATH, WrongMethod), None, codec, dir, res)
            == Responded(Response(500, INTERNAL_ERROR_PHRASE))
  {
  }
}

=== FILE: resource_controllers.dfy ===
/** What the snippet and tag endpoints hand to their services once admitted,
    and the status of a successful answer. */
module ResourceControllers {
  import opened Wrappers
  import opened Entities
  import opened UserDetails
  import opened RequestAuthorization

  /** The service call an admitted endpoint makes. `owner` arguments scope a
      create or a listing to a user; the others name the resources acted on. */
  datatype ServiceCall =
    | CreateSnippetCall(owner: UserId, title: string, description: string)
    | SearchCall(owner: UserId)
    | SnippetCall(snippetId: int)
    | TagLinkCall(snippetId: int, tagId: int)
    | CreateFileCall(snippetId: int)
    | FileCall(fileId: int, snippetId: int)
    | CreateTagCall(owner: UserId, name: string, color: string)
    | ListTagsCall(owner: UserId)
    | TagCall(tagId: int)
    | OtherCall

  /** The request body fields the create endpoints read. */
  datatype Body = Body(title: string, description: string, name: string, color: string)

  /** The call made by the handler of `e` for principal `p`. */
  function CallOf(e: Endpoint, p: Principal, body: Body): (c: ServiceCall)
    // creates and listings are scoped to the principal, whatever the body says
    ensures e.CreateSnippet? ==> c == CreateSnippetCall(Id(p), body.title, body.description)
    ensures e.SearchSnippets? ==> c == SearchCall(Id(p))
    ensures e.CreateTag? ==> c == CreateTagCall(Id(p), body.name, body.color)
    ensures e.GetTags? ==> c == ListTagsCall(Id(p))
    // file update and delete pass the file id first and the snippet id second
    ensures e.UpdateFile? || e.DeleteFile? ==> c == FileCall(e.fileId, e.id)
  {
    match e
    case CreateSnippet => CreateSnippetCall(Id(p), body.title, body.description)
    case SearchSnippets => SearchCall(Id(p))
    case GetSnippet(id) => SnippetCall(id)
    case DeleteSnippet(id) => SnippetCall(id)
    case UpdateSnippet(id) => SnippetCall(id)
    case GetTagsOfSnippet(id) => SnippetCall(id)
    case GetFiles(id) => SnippetCall(id)
    case AddTagToSnippet(id, tagId) => TagLinkCall(id, tagId)
    case RemoveTagFromSnippet(id, tagId) => TagLinkCall(id, tagId)
    case CreateFile(id) => CreateFileCall(id)
    case UpdateFile(id, fileId) => FileCall(fileId, id)
    case DeleteFile(id, fileId) => FileCall(fileId, id)
    case CreateTag => CreateTagCall(Id(p), body.name, body.color)
    case GetTags => ListTagsCall(Id(p))
    case UpdateTag(tagId) => TagCall(tagId)
    case DeleteTag(tagId) => TagCall(tagId)
    case GetTag(tagId) => TagCall(tagId)
    case _ => OtherCall
  }

  /** The status of a successful answer: 201 for the creates, 204 for tag
      attachment and detachment, 200 for everything else. */
  function SuccessStatus(e: Endpoint): (status: int)
    ensures status == 201 <==> e.CreateSnippet? || e.CreateFile? || e.CreateTag? || e.Register?
    ensures status == 204 <==> e.AddTagToSnippet? || e.RemoveTagFromSnippet?
    ensures status in {200, 201, 204}
  {
    if e.CreateSnippet? || e.CreateFile? || e.CreateTag? || e.Register? then 201
    else if e.AddTagToSnippet? || e.RemoveTagFromSnippet? then 204
    else 200
  }

  /** The snippet a snippet-scoped call acts on is the one whose ownership the
      endpoint's rule checked; likewise the tag of a tag-scoped call. */
  lemma CheckedIdIsUsedId(e: Endpoint, p: Principal, body: Body)
    ensures RuleOf(e).SnippetOwner? ==> CallOf(e, p, body).snippetId == RuleOf(e).snippetId
    ensures RuleOf(e).SnippetAndTagOwner? ==>
              CallOf(e, p, body) == TagLinkCall(RuleOf(e).snippetId, RuleOf(e).tagId)
    ensures RuleOf(e).TagOwner? || RuleOf(e).ReturnedTagOwned? ==> CallOf(e, p, body) == TagCall(RuleOf(e).tagId)
  {
  }

  /** Two principals sending the same create request create resources owned
      by themselves, never by each other. */
  lemma OwnerComesFromPrincipal(p: Principal, q: Principal, body: Body)
    requires Id(p) != Id(q)
    ensures CallOf(CreateSnippet, p, body) != CallOf(CreateSnippet, q, body)
    ensures CallOf(CreateTag, p, body).owner == Id(p)
  {
  }
}

=== FILE: result_objects.dfy ===
/** Unpacking of a stored procedure's cursor result into a typed list, and the
    "first row or null" convention of the single-row operations. */
module ResultObjects {
  import opened Wrappers
  import opened Errors

  /** An object taken out of a procedure's result map, seen against the element
      class `T` the caller expects: null, a list, an instance of `T`, or an
      instance of some other class. */
  datatype ResultObject<T> =
    | Null
    | ListObject(items: seq<ResultObject<T>>)
    | Instance(value: T)
    | OtherObject

  /** Every element is an instance of the expected class (a null element is not). */
  predicate AllInstances<T>(items: seq<ResultObject<T>>) {
    forall i :: 0 <= i < |items| ==> items[i].Instance?
  }

  /** The element-by-element cast of the list loop: fails on the first element
      that is not an instance, keeps the order otherwise. */
  function CastAll<T>(items: seq<ResultObject<T>>): (r: Result<seq<T>, ErrorKind>)
    ensures r.Ok? <==> AllInstances(items)
    ensures r.Err? ==> r.error == IllegalState
    ensures r.Ok? ==> |r.value| == |items|
    ensures r.Ok? ==> forall i :: 0 <= i < |items| ==> items[i] == Instance(r.value[i])
  {
    if |items| == 0 then Ok([])
    else if !items[0].Instance? then Err(IllegalState)
    else
      var rest := CastAll(items[1..]);
      if rest.Err? then rest
      else
        assert forall i :: 1 <= i < |items| ==> items[i] == items[1..][i - 1];
        Ok([items[0].value] + rest.value)
  }

  /** `getListFromResultObject`: a list whose elements all have the expected
      class, in the same order; an illegal-state failure for null, for a
      non-list, and for any list holding a foreign or null element. */
  function GetListFromResultObject<T>(obj: ResultObject<T>): (r: Result<seq<T>, ErrorKind>)
    ensures r.Ok? <==> obj.ListObject? && AllInstances(obj.items)
    ensures r.Err? ==> r.error == IllegalState
    ensures r.Ok? ==> |r.value| == |obj.items|
    ensures r.Ok? ==> forall i :: 0 <= i < |obj.items| ==> obj.items[i] == Instance(r.value[i])
  {
    match obj
    case ListObject(items) => if |items| == 0 then Ok([]) else CastAll(items)
    case _ => Err(IllegalState)
  }

  /** The list object a procedure returns for the rows `xs`. */
  function RowsObject<T>(xs: seq<T>): (obj: ResultObject<T>)
    ensures obj.ListObject? && |obj.items| == |xs|
    ensures forall i :: 0 <= i < |xs| ==> obj.items[i] == Instance(xs[i])
  {
    ListObject(seq(|xs|, i requires 0 <= i < |xs| => Instance(xs[i])))
  }

  /** Unpacking the object built from some rows gives exactly those rows. */
  lemma RowsRoundTrip<T>(xs: seq<T>)
    ensures GetListFromResultObject(RowsObject(xs)) == Ok(xs)
  {
    var r := GetListFromResultObject(RowsObject(xs));
    assert r.Ok?;
    assert r.value == xs;
  }

  /** The single-row convention: the first row, or null for an empty result. */
  function FirstOrNull<T>(xs: seq<T>): (r: Option<T>)
    ensures r.None? <==> |xs| == 0
    ensures r.Some? ==> r.value == xs[0]
  {
    if |xs| == 0 then None else Some(xs[0])
  }
}

=== FILE: snippet_repository.dfy ===
/** The snippet repository: row mapping and the failure translation of each
    stored procedure call on snippets, snippet tags and files. */
module SnippetRepository {
  import opened Wrappers
  import opened Errors
  import opened Entities
  import opened SqlErrorCode
  import opened ResultObjects
  import opened RepositoryCalls
  import DbErrorCodes

  // ---------------------------------------------------------------------------
  // Row mapping

  /** The columns of a snippet row. */
  datatype SnippetRow = SnippetRow(
    id: int, userId: UserId, title: string, description: string,
    createdColumn: Timestamp, updatedColumn: Timestamp)

  /** The columns of a file row. */
  datatype FileRow = FileRow(
    id: int, snippetId: int, filename: string, content: string, languageId: int,
    createdColumn: Timestamp, updatedColumn: Timestamp)

  /** A numeric SQL array column: null, or elements that may each be null. */
  type SqlIdArray = Option<seq<Option<int>>>

  /** The columns of a search-result row. */
  datatype DetailedRow = DetailedRow(
    id: int, userId: UserId, title: string, description: string,
    createdColumn: Timestamp, updatedColumn: Timestamp, relevance: int, fileCount: int,
    languageIds: SqlIdArray, tagIds: SqlIdArray)

  const LONG_MIN: int := -0x8000_0000_0000_0000
  const LONG_MAX: int := 0x7fff_ffff_ffff_ffff
  const LONG_RANGE: int := 0x1_0000_0000_0000_0000

  /** `Number.longValue()` of an integral database number: its low-order 64 bits
      read as a two's complement value. */
  function LongValue(n: int): (r: int)
    ensures LONG_MIN <= r <= LONG_MAX
    ensures (r - n) % LONG_RANGE == 0
    ensures LONG_MIN <= n <= LONG_MAX ==> r == n
  {
    (n - LONG_MIN) % LONG_RANGE + LONG_MIN
  }

  /** A snippet row as an entity. The mapper reads the CREATED column for both
      timestamps, so the UPDATED column never reaches the entity. */
  function MapSnippetRow(row: SnippetRow): (s: Snippet)
    ensures s.id == row.id && s.userId == row.userId
    ensures s.title == row.title && s.description == row.description
    ensures s.created == row.createdColumn
    ensures s.updated == s.created
  {
    Snippet(row.id, row.userId, row.title, row.description, row.createdColumn, row.createdColumn)
  }

  /** A file row as an entity; unlike snippets, files keep their UPDATED column. */
  function MapFileRow(row: FileRow): (f: File)
    ensures f.id == row.id && f.snippetId == row.snippetId && f.languageId == row.languageId
    ensures f.filename == row.filename && f.content == row.content
    ensures f.created == row.createdColumn && f.updated == row.updatedColumn
  {
    File(row.id, row.snippetId, row.languageId, row.filename, row.content, row.createdColumn, row.updatedColumn)
  }

  /** A numeric array column as a list of ids: null stays null; otherwise length,
      order and null elements are kept and every number is read as a long. */
  function MapIdArray(arr: SqlIdArray): (r: SqlIdArray)
    ensures r.None? <==> arr.None?
    ensures r.Some? ==> |r.value| == |arr.value|
    ensures r.Some? ==> forall i :: 0 <= i < |arr.value| ==>
              (r.value[i].None? <==> arr.value[i].None?)
    ensures r.Some? ==> forall i :: 0 <= i < |arr.value| ==>
              arr.value[i].Some? ==> r.value[i] == Some(LongValue(arr.value[i].value))
  {
    if arr.None? then None
    else
      Some(seq(|arr.value|, i requires 0 <= i < |arr.value| =>
        if arr.value[i].None? then None else Some(LongValue(arr.value[i].value))))
  }

  /** A search-result row as an entity. */
  function MapDetailedRow(row: DetailedRow): (s: DetailedSnippet)
    ensures s.id == row.id && s.userId == row.userId
    ensures s.title == row.title && s.description == row.description
    ensures s.relevance == row.relevance && s.fileCount == row.fileCount
    ensures s.created == row.createdColumn && s.updated == s.created
    ensures s.languageIds == MapIdArray(row.languageIds) && s.tagIds == MapIdArray(row.tagIds)
    ensures s.languageIds.None? <==> row.languageIds.None?
    ensures s.tagIds.None? <==> row.tagIds.None?
  {
    DetailedSnippet(
      row.id, row.userId, row.title, row.description, row.createdColumn, row.createdColumn,
      row.relevance, row.fileCount, MapIdArray(row.languageIds), MapIdArray(row.tagIds))
  }

  // ---------------------------------------------------------------------------
  // The switch statements of the individual operations

  function CreateSnippetArms(c: DbErrorCodes.DbErrorCode): (k: ErrorKind)
    ensures k == UserNotFound <==> c.UserNotFound?
    ensures !c.UserNotFound? ==> k == SnippetRepositoryFailure
  {
    if c.UserNotFound? then UserNotFound else SnippetRepositoryFailure
  }

  function AddTagArms(c: DbErrorCodes.DbErrorCode): (k: ErrorKind)
    ensures k == TagNotFound <==> c.TagNotFound?
    ensures k == SnippetNotFound <==> c.SnippetNotFound?
    ensures k == DuplicateTagOnSnippet <==> c.DuplicateTagOnSnippet?
    ensures !c.TagNotFound? && !c.SnippetNotFound? && !c.DuplicateTagOnSnippet? ==> k == SnippetRepositoryFailure
  {
    if c.TagNotFound? then TagNotFound
    else if c.SnippetNotFound? then SnippetNotFound
    else if c.DuplicateTagOnSnippet? then DuplicateTagOnSnippet
    else SnippetRepositoryFailure
  }

  function RemoveTagArms(c: DbErrorCodes.DbErrorCode): (k: ErrorKind)
    ensures k == TagNotOnSnippet <==> c.TagNotOnSnippet?
    ensures !c.TagNotOnSnippet? ==> k == SnippetRepositoryFailure
  {
    if c.TagNotOnSnippet? then TagNotOnSnippet else SnippetRepositoryFailure
  }

  /** The switch of `deleteSnippet` and of `updateSnippet`. */
  function SnippetMutationArms(c: DbErrorCodes.DbErrorCode): (k: ErrorKind)
    ensures k == SnippetNotFound <==> c.SnippetNotFound?
    ensures !c.SnippetNotFound? ==> k == SnippetRepositoryFailure
  {
    if c.SnippetNotFound? then SnippetNotFound else SnippetRepositoryFailure
  }

  function CreateFileArms(c: DbErrorCodes.DbErrorCode): (k: ErrorKind)
    ensures k == SnippetNotFound <==> c.SnippetNotFound?
    ensures k == LanguageNotFound <==> c.LanguageNotFound?
    ensures !c.SnippetNotFound? && !c.LanguageNotFound? ==> k == SnippetRepositoryFailure
  {
    if c.SnippetNotFound? then SnippetNotFound
    else if c.LanguageNotFound? then LanguageNotFound
    else SnippetRepositoryFailure
  }

  function UpdateFileArms(c: DbErrorCodes.DbErrorCode): (k: ErrorKind)
    ensures k == FileNotFound <==> c.FileNotFound?
    ensures k == LanguageNotFound <==> c.LanguageNotFound?
    ensures !c.FileNotFound? && !c.LanguageNotFound? ==> k == SnippetRepositoryFailure
  {
    if c.FileNotFound? then FileNotFound
    else if c.LanguageNotFound? then LanguageNotFound
    else SnippetRepositoryFailure
  }

  function DeleteFileArms(c: DbErrorCodes.DbErrorCode): (k: ErrorKind)
    ensures k == FileNotFound <==> c.FileNotFound?
    ensures !c.FileNotFound? ==> k == SnippetRepositoryFailure
  {
    if c.FileNotFound? then FileNotFound else SnippetRepositoryFailure
  }

  // ---------------------------------------------------------------------------
  // Operations: a value (`None` for null) or the exception thrown

  function CreateSnippet(call: CallOutcome<Snippet>): Result<Option<Snippet>, ErrorKind> {
    RowInTry(call, CreateSnippetArms, SnippetRepositoryFailure)
  }

  function AddTagToSnippet(call: CallOutcome<()>): Result<(), ErrorKind> {
    NoRowWithSwitch(call, AddTagArms, SnippetRepositoryFailure)
  }

  function RemoveTagFromSnippet(call: CallOutcome<()>): Result<(), ErrorKind> {
    NoRowWithSwitch(call, RemoveTagArms, SnippetRepositoryFailure)
  }

  function GetTagsOfSnippet(call: CallOutcome<Tag>): Result<seq<Tag>, ErrorKind> {
    ListInTry(call, SnippetRepositoryFailure)
  }

  function GetSnippet(call: CallOutcome<Snippet>): Result<Option<Snippet>, ErrorKind> {
    RowAfterCodeCheck(call, DbErrorCodes.Code(DbErrorCodes.SnippetNotFound),
                      SnippetNotFound, SnippetRepositoryFailure)
  }

  function DeleteSnippet(call: CallOutcome<Snippet>): Result<Option<Snippet>, ErrorKind> {
    RowAfterSwitch(call, SnippetMutationArms, SnippetRepositoryFailure)
  }

  function UpdateSnippet(call: CallOutcome<Snippet>): Result<Option<Snippet>, ErrorKind> {
    RowAfterSwitch(call, SnippetMutationArms, SnippetRepositoryFailure)
  }

  function CreateFile(call: CallOutcome<File>): Result<Option<File>, ErrorKind> {
    RowInTry(call, CreateFileArms, SnippetRepositoryFailure)
  }

  function GetFiles(call: CallOutcome<File>): Result<seq<File>, ErrorKind> {
    ListInTry(call, SnippetRepositoryFailure)
  }

  function UpdateFile(call: CallOutcome<File>): Result<Option<File>, ErrorKind> {
    RowAfterSwitch(call, UpdateFileArms, SnippetRepositoryFailure)
  }

  function DeleteFile(call: CallOutcome<File>): Result<Option<File>, ErrorKind> {
    RowAfterSwitch(call, DeleteFileArms, SnippetRepositoryFailure)
  }

  // ---------------------------------------------------------------------------
  // Search

  /** The parameters of `getPaginatedSnippets`; a Java `null` is `None`. */
  datatype SearchRequest = SearchRequest(
    userId: UserId, searchQuery: Option<string>, tagIds: Option<seq<int>>, languageIds: Option<seq<int>>,
    pageNumber: Option<int>, pageSize: Option<int>)

  /** A `NUMBER_ARRAY` argument of the procedure: SQL null, or an array. */
  datatype SqlArray = NullArray | NumberArray(elements: seq<int>)

  /** The arguments the procedure is called with. */
  datatype SearchArguments = SearchArguments(
    userId: UserId, searchQuery: Option<string>, tagIds: SqlArray, languageIds: SqlArray,
    pageNumber: Option<int>, pageSize: Option<int>)

  /** What the procedure can tell about an id filter from its argument: no
      filter for SQL null, and the array's ids otherwise. */
  function FilterOf(arg: SqlArray): Option<seq<int>> {
    if arg.NullArray? then None else Some(arg.elements)
  }

  /** The array argument passed for an optional id filter: a null list is
      passed as SQL null, and a list, the empty one included, as an array. */
  function ArrayArgument(ids: Option<seq<int>>): (arg: SqlArray)
    ensures arg.NullArray? <==> ids.None?
    ensures FilterOf(arg) == ids
  {
    if ids.None? then NullArray else NumberArray(ids.value)
  }

  /** The call's arguments: every parameter reaches the procedure, and the
      procedure can tell an absent filter from an empty one. */
  function SearchArgumentsFor(request: SearchRequest): (args: SearchArguments)
    ensures args.userId == request.userId && args.searchQuery == request.searchQuery
    ensures args.pageNumber == request.pageNumber && args.pageSize == request.pageSize
    ensures FilterOf(args.tagIds) == request.tagIds && FilterOf(args.languageIds) == request.languageIds
    ensures request.tagIds == Some([]) ==> args.tagIds != NullArray
    ensures request.languageIds == Some([]) ==> args.languageIds != NullArray
  {
    SearchArguments(request.userId, request.searchQuery, ArrayArgument(request.tagIds),
                    ArrayArgument(request.languageIds), request.pageNumber, request.pageSize)
  }

  /** The outcome of the search procedure: the cursor and the total-count out
      parameter (null when absent), or the exception thrown while building the
      arguments or calling. */
  datatype SearchOutcome =
    | SearchReturned(snippets: ResultObject<DetailedSnippet>, totalCount: Option<int>)
    | SearchThrew(failure: Failure)

  /** `getPaginatedSnippets`, given the procedure as a function of its arguments. */
  function GetPaginatedSnippets(request: SearchRequest, search: SearchArguments -> SearchOutcome)
    : (r: Result<SnippetSearchResult, ErrorKind>)
    ensures var outcome := search(SearchArgumentsFor(request));
      && (outcome.SearchThrew? ==> r == Err(SnippetRepositoryFailure))
      && (outcome.SearchReturned? ==> (r.Ok? <==> GetListFromResultObject(outcome.snippets).Ok?))
      && (outcome.SearchReturned? && r.Err? ==> r.error == IllegalState)
      && (outcome.SearchReturned? && r.Ok? ==> r.value.snippets == GetListFromResultObject(outcome.snippets).value)
      && (outcome.SearchReturned? && r.Ok? && outcome.totalCount.None? ==> r.value.totalCount == 0)
      && (outcome.SearchReturned? && r.Ok? && outcome.totalCount.Some? ==>
            r.value.totalCount == LongValue(outcome.totalCount.value))
  {
    match search(SearchArgumentsFor(request))
    case SearchThrew(_) => Err(SnippetRepositoryFailure)
    case SearchReturned(obj, count) =>
      var rows := GetListFromResultObject(obj);
      if rows.Err? then Err(rows.error)
      else Ok(SnippetSearchResult(rows.value, if count.None? then 0 else LongValue(count.value)))
  }

  /** A search whose cursor holds well-formed rows returns exactly those rows. */
  lemma SearchReturnsRows(request: SearchRequest, search: SearchArguments -> SearchOutcome,
                          rows: seq<DetailedSnippet>, count: Option<int>)
    requires search(SearchArgumentsFor(request)) == SearchReturned(RowsObject(rows), count)
    ensures GetPaginatedSnippets(request, search).Ok?
    ensures GetPaginatedSnippets(request, search).value.snippets == rows
  {
    RowsRoundTrip(rows);
  }

  // ---------------------------------------------------------------------------
  // Properties of the failure translation, stated against raw database codes

  /** `createSnippet`: the user-not-found code is the only one translated. */
  lemma CreateSnippetFailures(e: DataAccessError)
    ensures var r := CreateSnippet(Threw(DataAccess(e)));
      && r.Err?
      && (r.error == UserNotFound <==> GetSqlErrorCode(e) == Code(20003))
      && (r.error == NumberFormat <==> GetSqlErrorCode(e) == NumberFormatFailure)
      && r.error in {UserNotFound, SnippetRepositoryFailure, NumberFormat}
  {
  }

  /** `addTagToSnippet`: three codes get errors of their own, all others are generic. */
  lemma AddTagFailures(e: DataAccessError)
    ensures var r := AddTagToSnippet(Threw(DataAccess(e)));
      && r.Err?
      && (r.error == TagNotFound <==> GetSqlErrorCode(e) == Code(20006))
      && (r.error == SnippetNotFound <==> GetSqlErrorCode(e) == Code(20008))
      && (r.error == DuplicateTagOnSnippet <==> GetSqlErrorCode(e) == Code(20007))
      && (r.error == NumberFormat <==> GetSqlErrorCode(e) == NumberFormatFailure)
      && r.error in {TagNotFound, SnippetNotFound, DuplicateTagOnSnippet, SnippetRepositoryFailure, NumberFormat}
  {
  }

  /** `removeTagFromSnippet`: only the tag-not-on-snippet code is translated; a
      missing snippet in particular becomes the generic repository failure. */
  lemma RemoveTagFailures(e: DataAccessError)
    ensures var r := RemoveTagFromSnippet(Threw(DataAccess(e)));
      && r.Err?
      && (r.error == TagNotOnSnippet <==> GetSqlErrorCode(e) == Code(20009))
      && (GetSqlErrorCode(e) == Code(20008) ==> r.error == SnippetRepositoryFailure)
      && r.error in {TagNotOnSnippet, SnippetRepositoryFailure, NumberFormat}
  {
  }

  /** `getSnippet`: the snippet-not-found code becomes snippet-not-found, every
      other failure of the call is generic, and an empty cursor is null. */
  lemma GetSnippetOutcomes(e: DataAccessError)
    ensures var r := GetSnippet(Threw(DataAccess(e)));
      && r.Err?
      && (r.error == SnippetNotFound <==> GetSqlErrorCode(e) == Code(20008))
      && r.error in {SnippetNotFound, SnippetRepositoryFailure, NumberFormat}
    ensures GetSnippet(Threw(NonDataAccess)) == Err(SnippetRepositoryFailure)
    ensures GetSnippet(Returned(RowsObject([]))) == Ok(None)
  {
    RowsRoundTrip<Snippet>([]);
  }

  /** `deleteSnippet` and `updateSnippet` translate the snippet-not-found code only. */
  lemma SnippetMutationFailures(e: DataAccessError)
    ensures var r := DeleteSnippet(Threw(DataAccess(e)));
      && r.Err?
      && (r.error == SnippetNotFound <==> GetSqlErrorCode(e) == Code(20008))
      && r.error in {SnippetNotFound, SnippetRepositoryFailure, NumberFormat}
    ensures UpdateSnippet(Threw(DataAccess(e))) == DeleteSnippet(Threw(DataAccess(e)))
  {
  }

  /** The file switches: a missing file or language is reported exactly when
      the database raises that constant's code and the lookup reaches the
      constant, which with codes of their own it always does. */
  lemma FileFailures(e: DataAccessError)
    ensures var r := UpdateFile(Threw(DataAccess(e)));
      && r.Err?
      && (r.error == FileNotFound <==> GetSqlErrorCode(e) == Code(DbErrorCodes.FILE_NOT_FOUND_CODE)
                                       && DbErrorCodes.Reachable(DbErrorCodes.FileNotFound))
      && (r.error == LanguageNotFound <==> GetSqlErrorCode(e) == Code(DbErrorCodes.LANGUAGE_NOT_FOUND_CODE)
                                           && DbErrorCodes.Reachable(DbErrorCodes.LanguageNotFound))
      && r.error in {FileNotFound, LanguageNotFound, SnippetRepositoryFailure, NumberFormat}
    ensures var r := DeleteFile(Threw(DataAccess(e)));
      && r.Err?
      && (r.error == FileNotFound <==> GetSqlErrorCode(e) == Code(DbErrorCodes.FILE_NOT_FOUND_CODE)
                                       && DbErrorCodes.Reachable(DbErrorCodes.FileNotFound))
      && r.error in {FileNotFound, SnippetRepositoryFailure, NumberFormat}
    ensures var r := CreateFile(Threw(DataAccess(e)));
      && r.Err?
      && (r.error == SnippetNotFound <==> GetSqlErrorCode(e) == Code(20008))
      && (r.error == LanguageNotFound <==> GetSqlErrorCode(e) == Code(DbErrorCodes.LANGUAGE_NOT_FOUND_CODE)
                                           && DbErrorCodes.Reachable(DbErrorCodes.LanguageNotFound))
      && r.error in {SnippetNotFound, LanguageNotFound, SnippetRepositoryFailure, NumberFormat}
    ensures DbErrorCodes.FreshCodes() ==>
              var fileCode := Code(DbErrorCodes.FILE_NOT_FOUND_CODE);
              var languageCode := Code(DbErrorCodes.LANGUAGE_NOT_FOUND_CODE);
              && (UpdateFile(Threw(DataAccess(e))).error == FileNotFound <==> GetSqlErrorCode(e) == fileCode)
              && (DeleteFile(Threw(DataAccess(e))).error == FileNotFound <==> GetSqlErrorCode(e) == fileCode)
              && (CreateFile(Threw(DataAccess(e))).error == LanguageNotFound <==> GetSqlErrorCode(e) == languageCode)
  {
    DbErrorCodes.UndeclaredReachability();
  }

  /** Every single-row operation returns the first row, or null for no rows. */
  lemma SingleRowResults(snippets: seq<Snippet>, files: seq<File>)
    ensures CreateSnippet(Returned(RowsObject(snippets))) == Ok(FirstOrNull(snippets))
    ensures GetSnippet(Returned(RowsObject(snippets))) == Ok(FirstOrNull(snippets))
    ensures DeleteSnippet(Returned(RowsObject(snippets))) == Ok(FirstOrNull(snippets))
    ensures UpdateSnippet(Returned(RowsObject(snippets))) == Ok(FirstOrNull(snippets))
    ensures CreateFile(Returned(RowsObject(files))) == Ok(FirstOrNull(files))
    ensures UpdateFile(Returned(RowsObject(files))) == Ok(FirstOrNull(files))
    ensures DeleteFile(Returned(RowsObject(files))) == Ok(FirstOrNull(files))
  {
    RowsRoundTrip(snippets);
    RowsRoundTrip(files);
  }

  /** A malformed result escapes as an illegal-state failure where unpacking
      follows the try, and is wrapped as a repository failure where it is inside. */
  lemma MalformedResults(obj: ResultObject<Snippet>)
    requires GetListFromResultObject(obj).Err?
    ensures GetSnippet(Returned(obj)) == Err(IllegalState)
    ensures DeleteSnippet(Returned(obj)) == Err(IllegalState)
    ensures CreateSnippet(Returned(obj)) == Err(SnippetRepositoryFailure)
  {
  }

  /** Reading back an application error raised by the database: a missing
      snippet raised on `getSnippet` becomes snippet-not-found. */
  lemma GetSnippetNotFoundMessage(text: string)
    ensures GetSnippet(Threw(DataAccess(DataAccessError(SqlException(Some(OracleMessage(20008, text)))))))
            == Err(SnippetNotFound)
  {
    OracleMessageRoundTrip(20008, text);
  }
}

=== FILE: sql_error_code.dfy ===
/** Extraction of the Oracle error number from a data-access failure: the
    integer that follows the first `ORA-` in the driver's message, read by the
    pattern `ORA-(-?\d+)` and converted with 32-bit `Integer.parseInt`. */
module SqlErrorCode {
  import opened Wrappers

  /** The cause a data-access exception wraps: a driver `SQLException` whose
      message may be null, or something else. */
  datatype Cause = SqlException(message: Option<string>) | OtherCause

  /** A data-access exception, reduced to its cause. */
  datatype DataAccessError = DataAccessError(cause: Cause)

  /** The outcome of reading the code: a number, or the `NumberFormatException`
      that `Integer.parseInt` throws when the digits do not fit in 32 bits. */
  datatype CodeReading = Code(value: int) | NumberFormatFailure

  const INT_MIN: int := -0x8000_0000
  const INT_MAX: int := 0x7fff_ffff
  const ORA_PREFIX: string := "ORA-"

  /** A match of the capture group: an optional minus sign, then digits. */
  datatype OraMatch = OraMatch(negative: bool, digits: string)

  /** `\d`: an ASCII decimal digit. */
  predicate IsDigit(c: char) {
    '0' <= c <= '9'
  }

  /** The length of the greedy `\d+` run starting at `i`. */
  function DigitRun(s: string, i: nat): (n: nat)
    requires i <= |s|
    ensures i + n <= |s|
    ensures forall k :: i <= k < i + n ==> IsDigit(s[k])
    ensures i + n == |s| || !IsDigit(s[i + n])
    decreases |s| - i
  {
    if i < |s| && IsDigit(s[i]) then 1 + DigitRun(s, i + 1) else 0
  }

  /** Whether the pattern matches at position `i`, and what the group captures. */
  function MatchAt(s: string, i: nat): Option<OraMatch>
    requires i <= |s|
  {
    if i + 4 <= |s| && s[i..i + 4] == ORA_PREFIX then
      var j := i + 4;
      if j < |s| && s[j] == '-' && DigitRun(s, j + 1) > 0 then
        Some(OraMatch(true, s[j + 1..j + 1 + DigitRun(s, j + 1)]))
      else if DigitRun(s, j) > 0 then
        Some(OraMatch(false, s[j..j + DigitRun(s, j)]))
      else None
    else None
  }

  /** `Matcher.find()` from position `i`: the leftmost position where the
      pattern matches, with its capture. */
  function FindFrom(s: string, i: nat): (r: Option<(nat, OraMatch)>)
    requires i <= |s|
    ensures r.Some? ==> i <= r.value.0 <= |s| && MatchAt(s, r.value.0) == Some(r.value.1)
    ensures r.Some? ==> forall k :: i <= k < r.value.0 ==> MatchAt(s, k).None?
    ensures r.None? ==> forall k :: i <= k <= |s| ==> MatchAt(s, k).None?
    decreases |s| - i
  {
    var m := MatchAt(s, i);
    if m.Some? then Some((i, m.value))
    else if i == |s| then None
    else FindFrom(s, i + 1)
  }

  /** The value of a digit character. */
  function DigitValue(c: char): nat
    requires IsDigit(c)
  {
    (c as int) - ('0' as int)
  }

  /** The natural number a string of decimal digits denotes. */
  function DigitsValue(ds: string): nat
    requires forall k :: 0 <= k < |ds| ==> IsDigit(ds[k])
  {
    if |ds| == 0 then 0 else DigitsValue(ds[..|ds| - 1]) * 10 + DigitValue(ds[|ds| - 1])
  }

  /** The signed integer the captured group denotes. */
  function CapturedValue(m: OraMatch): int
    requires forall k :: 0 <= k < |m.digits| ==> IsDigit(m.digits[k])
  {
    var magnitude: int := DigitsValue(m.digits);
    if m.negative then -magnitude else magnitude
  }

  /** `Integer.parseInt` of the captured group: the value when it fits in 32
      bits, the number-format failure otherwise. */
  function ParseInt(m: OraMatch): (r: CodeReading)
    requires forall k :: 0 <= k < |m.digits| ==> IsDigit(m.digits[k])
    ensures r.Code? <==> INT_MIN <= CapturedValue(m) <= INT_MAX
    ensures r.Code? ==> r.value == CapturedValue(m)
  {
    var v := CapturedValue(m);
    if INT_MIN <= v <= INT_MAX then Code(v) else NumberFormatFailure
  }

  /** Every capture `MatchAt` produces consists of digits only. */
  lemma MatchDigits(s: string, i: nat)
    requires i <= |s| && MatchAt(s, i).Some?
    ensures forall k :: 0 <= k < |MatchAt(s, i).value.digits| ==> IsDigit(MatchAt(s, i).value.digits[k])
  {
  }

  /** `getSqlErrorCode`: 0 unless the cause is an SQL exception with a message
      in which the pattern is found; otherwise the parsed first capture. */
  function GetSqlErrorCode(e: DataAccessError): (r: CodeReading)
    ensures e.cause.OtherCause? ==> r == Code(0)
    ensures e.cause.SqlException? && e.cause.message.None? ==> r == Code(0)
    ensures e.cause.SqlException? && e.cause.message.Some? && FindFrom(e.cause.message.value, 0).None? ==> r == Code(0)
  {
    match e.cause
    case OtherCause => Code(0)
    case SqlException(message) =>
      if message.None? then Code(0)
      else
        var found := FindFrom(message.value, 0);
        if found.None? then Code(0)
        else
          MatchDigits(message.value, found.value.0);
          ParseInt(found.value.1)
  }

  // ---------------------------------------------------------------------------
  // The partner: how the database formats an application error, and the proof
  // that reading the code back from such a message returns the code raised.

  /** The decimal digit character for `d`. */
  function DigitChar(d: nat): (c: char)
    requires d < 10
    ensures IsDigit(c) && DigitValue(c) == d
  {
    ('0' as int + d) as char
  }

  /** The decimal representation of `n`, without leading zeros. */
  function Digits(n: nat): (ds: string)
    ensures |ds| >= 1
    ensures forall k :: 0 <= k < |ds| ==> IsDigit(ds[k])
  {
    if n < 10 then [DigitChar(n)] else Digits(n / 10) + [DigitChar(n % 10)]
  }

  /** Decimal digits read back give the number they were written from. */
  lemma {:induction false} DigitsRoundTrip(n: nat)
    ensures DigitsValue(Digits(n)) == n
  {
    if n >= 10 {
      var ds := Digits(n);
      assert ds[..|ds| - 1] == Digits(n / 10);
      DigitsRoundTrip(n / 10);
    }
  }

  /** A run of `m` digits followed by a non-digit is read as exactly `m` digits. */
  lemma {:induction false} DigitRunExact(s: string, i: nat, m: nat)
    requires i + m < |s|
    requires forall k :: i <= k < i + m ==> IsDigit(s[k])
    requires !IsDigit(s[i + m])
    ensures DigitRun(s, i) == m
    decreases m
  {
    if m > 0 {
      DigitRunExact(s, i + 1, m - 1);
    }
  }

  /** The message an application error with code `code` carries: `ORA-`, the
      code, a colon and the error text. */
  function OracleMessage(code: nat, text: string): string {
    ORA_PREFIX + Digits(code) + ": " + text
  }

  /** Reading the code back from such a message gives the code raised when it
      fits in 32 bits, whatever the error text, and the number-format failure
      otherwise. */
  lemma OracleMessageRoundTrip(code: nat, text: string)
    ensures GetSqlErrorCode(DataAccessError(SqlException(Some(OracleMessage(code, text)))))
            == if code <= INT_MAX then Code(code) else NumberFormatFailure
  {
    var s := OracleMessage(code, text);
    var ds := Digits(code);
    assert s[..4] == ORA_PREFIX;
    assert s[4..4 + |ds|] == ds;
    assert s[4 + |ds|] == ':';
    DigitRunExact(s, 4, |ds|);
    assert MatchAt(s, 0) == Some(OraMatch(false, ds));
    DigitsRoundTrip(code);
  }
}

=== FILE: tag_repository.dfy ===
/** The tag repository's one translated operation, tag creation. */
module TagRepository {
  import opened Wrappers
  import opened Errors
  import opened Entities
  import opened SqlErrorCode
  import opened ResultObjects
  import opened RepositoryCalls
  import DbErrorCodes

  function CreateTagArms(c: DbErrorCodes.DbErrorCode): (k: ErrorKind)
    ensures k == UserNotFound <==> c.UserNotFound?
    ensures k == InvalidTagColor <==> c.InvalidTagColor?
    ensures !c.UserNotFound? && !c.InvalidTagColor? ==> k == UserRepositoryFailure
  {
    if c.UserNotFound? then UserNotFound
    else if c.InvalidTagColor? then InvalidTagColor
    else UserRepositoryFailure
  }

  function CreateTag(call: CallOutcome<Tag>): Result<Option<Tag>, ErrorKind> {
    RowInTry(call, CreateTagArms, UserRepositoryFailure)
  }

  /** `createTag` reports a missing owner and an invalid colour apart; any other
      failure, a malformed result included, is the generic user-repository one. */
  lemma CreateTagFailures(e: DataAccessError, obj: ResultObject<Tag>)
    ensures var r := CreateTag(Threw(DataAccess(e)));
      && r.Err?
      && (r.error == UserNotFound <==> GetSqlErrorCode(e) == Code(20003))
      && (r.error == InvalidTagColor <==> GetSqlErrorCode(e) == Code(20005))
      && r.error in {UserNotFound, InvalidTagColor, UserRepositoryFailure, NumberFormat}
    ensures CreateTag(Threw(NonDataAccess)) == Err(UserRepositoryFailure)
    ensures GetListFromResultObject(obj).Err? ==> CreateTag(Returned(obj)) == Err(UserRepositoryFailure)
  {
  }

  /** A returned row list yields its first tag, or null. */
  lemma CreateTagRow(tags: seq<Tag>)
    ensures CreateTag(Returned(RowsObject(tags))) == Ok(FirstOrNull(tags))
  {
    RowsRoundTrip(tags);
  }

  /** The database rejecting a colour, as its message reads, becomes the
      invalid-colour error. */
  lemma InvalidColorMessage(text: string)
    ensures CreateTag(Threw(DataAccess(DataAccessError(SqlException(Some(OracleMessage(20005, text)))))))
            == Err(InvalidTagColor)
  {
    OracleMessageRoundTrip(20005, text);
  }
}

=== FILE: user_controller.dfy ===
/** The administration endpoints over users. Whether a user is an
    administrator is asked of the user service, for a database state; the
    service call may fail like any other, and its failure ends the request. */
module UserController {
  import opened Wrappers
  import opened Errors
  import opened Entities
  import opened RepositoryCalls
  import opened AuthController
  import UserRepository
  import ResultObjects

  function ResponseFor(user: User, admin: bool): UserResponse {
    UserResponse(user.id, user.username, user.created, admin)
  }

  /** The response list of `GET /api/users`: one entry per user, in order,
      each flagged by asking the service about that user. The first failing
      question ends the listing with its failure. */
  method UsersResponse(users: seq<User>, isUserAdmin: UserId -> Result<bool, ErrorKind>)
    returns (r: Result<seq<UserResponse>, ErrorKind>)
    ensures r.Ok? <==> forall i :: 0 <= i < |users| ==> isUserAdmin(users[i].id).Ok?
    ensures r.Ok? ==> |r.value| == |users|
    ensures r.Ok? ==> forall i :: 0 <= i < |users| ==>
              r.value[i].userId == users[i].id && r.value[i].username == users[i].username
              && r.value[i].created == users[i].created && r.value[i].admin == isUserAdmin(users[i].id).value
    ensures r.Err? ==> exists i :: 0 <= i < |users| && isUserAdmin(users[i].id) == Err(r.error)
                                   && forall j :: 0 <= j < i ==> isUserAdmin(users[j].id).Ok?
  {
    var rs := [];
    var k := 0;
    while k < |users|
      invariant 0 <= k <= |users| && |rs| == k
      invariant forall i :: 0 <= i < k ==> isUserAdmin(users[i].id).Ok?
      invariant forall i :: 0 <= i < k ==> rs[i] == ResponseFor(users[i], isUserAdmin(users[i].id).value)
    {
      var admin := isUserAdmin(users[k].id);
      if admin.Err? {
        return Err(admin.error);
      }
      rs := rs + [ResponseFor(users[k], admin.value)];
      k := k + 1;
    }
    return Ok(rs);
  }

  /** `GET /api/users`: the listing's failure, or one response per listed user. */
  method GetUsers(call: CallOutcome<User>, isUserAdmin: UserId -> Result<bool, ErrorKind>)
    returns (r: Result<seq<UserResponse>, ErrorKind>)
    ensures UserRepository.GetUsers(call).Err? ==> r == Err(UserRepository.GetUsers(call).error)
    ensures var users := UserRepository.GetUsers(call);
      && (r.Ok? <==> users.Ok? && forall i :: 0 <= i < |users.value| ==> isUserAdmin(users.value[i].id).Ok?)
      && (r.Ok? ==> |r.value| == |users.value|
                    && forall i :: 0 <= i < |users.value| ==>
                         r.value[i] == ResponseFor(users.value[i], isUserAdmin(users.value[i].id).value))
  {
    var users := UserRepository.GetUsers(call);
    if users.Err? {
      return Err(users.error);
    }
    r := UsersResponse(users.value, isUserAdmin);
  }

  /** The shared response of the two single-user reads: a null user fails
      when its id is read, before the service is asked about it. */
  function SingleUserResponse(lookup: Result<Option<User>, ErrorKind>, isUserAdmin: UserId -> Result<bool, ErrorKind>)
    : (r: Result<UserResponse, ErrorKind>)
    ensures lookup == Ok(None) ==> r == Err(NullReference)
    ensures lookup.Err? ==> r == Err(lookup.error)
    ensures lookup.Ok? && lookup.value.Some? ==>
              var u := lookup.value.value;
              && (r.Ok? <==> isUserAdmin(u.id).Ok?)
              && (isUserAdmin(u.id).Err? ==> r == Err(isUserAdmin(u.id).error))
              && (r.Ok? ==> r.value.userId == u.id && r.value.username == u.username
                            && r.value.created == u.created && r.value.admin == isUserAdmin(u.id).value)
  {
    match lookup
    case Err(k) => Err(k)
    case Ok(None) => Err(NullReference)
    case Ok(Some(user)) =>
      var admin := isUserAdmin(user.id);
      if admin.Err? then Err(admin.error) else Ok(ResponseFor(user, admin.value))
  }

  /** `DELETE /api/users/{id}`, over a database state of type `S`: the
      administrator flag is read before the deletion, so the response
      reports the deleted user's role as it was, and a failure to read it
      ends the request before anything is deleted. */
  function DeleteUser<S>(
    state: S, id: UserId,
    isUserAdmin: (S, UserId) -> Result<bool, ErrorKind>,
    delete: (S, UserId) -> (CallOutcome<User>, S))
    : (r: Result<UserResponse, ErrorKind>)
    ensures isUserAdmin(state, id).Err? ==> r == Err(isUserAdmin(state, id).error)
    ensures isUserAdmin(state, id).Ok? ==>
              var deleted := UserRepository.DeleteUser(delete(state, id).0);
              && (r.Ok? <==> deleted.Ok? && deleted.value.Some?)
              && (deleted.Err? ==> r == Err(deleted.error))
              && (deleted == Ok(None) ==> r == Err(NullReference))
              && (r.Ok? ==> r.value.userId == deleted.value.value.id && r.value.username == deleted.value.value.username
                            && r.value.created == deleted.value.value.created
                            && r.value.admin == isUserAdmin(state, id).value)
  {
    var admin := isUserAdmin(state, id);
    if admin.Err? then Err(admin.error)
    else
      match UserRepository.DeleteUser(delete(state, id).0)
      case Err(k) => Err(k)
      case Ok(None) => Err(NullReference)
      case Ok(Some(user)) => Ok(ResponseFor(user, admin.value))
  }

  /** The password argument handed to the repository on an update. */
  datatype PasswordArgument = NoPassword | PlainEmpty | Hashed(hash: PasswordHash)

  /** A null password stays null, an empty one is passed on as the empty
      string, and any other is hashed first. */
  function PasswordFor(password: Option<string>, encode: string -> PasswordHash): (a: PasswordArgument)
    ensures a.Hashed? <==> password.Some? && |password.value| > 0
    ensures a.Hashed? ==> a.hash == encode(password.value)
    ensures a == NoPassword <==> password.None?
  {
    if password.None? then NoPassword
    else if |password.value| == 0 then PlainEmpty
    else Hashed(encode(password.value))
  }

  /** `PATCH /api/users/{id}`: the flag is read before the update, and the
      repository sees the password only through `PasswordFor`. */
  function UpdateUser<S>(
    state: S, id: UserId, username: Option<string>, password: Option<string>,
    encode: string -> PasswordHash,
    isUserAdmin: (S, UserId) -> Result<bool, ErrorKind>,
    update: (S, UserId, Option<string>, PasswordArgument) -> (CallOutcome<User>, S))
    : (r: Result<UserResponse, ErrorKind>)
    ensures isUserAdmin(state, id).Err? ==> r == Err(isUserAdmin(state, id).error)
    ensures isUserAdmin(state, id).Ok? ==>
              var updated := UserRepository.UpdateUser(update(state, id, username, PasswordFor(password, encode)).0);
              && (r.Ok? <==> updated.Ok? && updated.value.Some?)
              && (updated.Err? ==> r == Err(updated.error))
              && (updated == Ok(None) ==> r == Err(NullReference))
              && (r.Ok? ==> r.value.userId == updated.value.value.id && r.value.username == updated.value.value.username
                            && r.value.created == updated.value.value.created
                            && r.value.admin == isUserAdmin(state, id).value)
  {
    var admin := isUserAdmin(state, id);
    if admin.Err? then Err(admin.error)
    else
      var argument := PasswordFor(password, encode);
      match UserRepository.UpdateUser(update(state, id, username, argument).0)
      case Err(k) => Err(k)
      case Ok(None) => Err(NullReference)
      case Ok(Some(user)) => Ok(ResponseFor(user, admin.value))
  }

  /** Demoting or deleting an administrator still reports it as one: the
      response flag never depends on the state after the mutation. */
  lemma FlagIsPreMutation<S>(state: S, id: UserId, isUserAdmin: (S, UserId) -> Result<bool, ErrorKind>,
                             delete: (S, UserId) -> (CallOutcome<User>, S), u: User)
    requires delete(state, id).0 == Returned(ResultObjects.RowsObject([u]))
    requires isUserAdmin(state, id) == Ok(true)
    ensures DeleteUser(state, id, isUserAdmin, delete) == Ok(ResponseFor(u, true))
  {
    UserRepository.RowResults([u], []);
  }

  /** When the flag cannot be read, neither the deletion nor the update (nor
      the password encoder) is consulted: the outcome is the same whatever
      they would do. */
  lemma FlagFailureStopsMutation<S>(
    state: S, id: UserId, username: Option<string>, password: Option<string>,
    isUserAdmin: (S, UserId) -> Result<bool, ErrorKind>,
    delete: (S, UserId) -> (CallOutcome<User>, S), otherDelete: (S, UserId) -> (CallOutcome<User>, S),
    encode: string -> PasswordHash, otherEncode: string -> PasswordHash,
    update: (S, UserId, Option<string>, PasswordArgument) -> (CallOutcome<User>, S),
    otherUpdate: (S, UserId, Option<string>, PasswordArgument) -> (CallOutcome<User>, S))
    requires isUserAdmin(state, id).Err?
    ensures DeleteUser(state, id, isUserAdmin, delete) == DeleteUser(state, id, isUserAdmin, otherDelete)
    ensures UpdateUser(state, id, username, password, encode, isUserAdmin, update)
            == UpdateUser(state, id, username, password, otherEncode, isUserAdmin, otherUpdate)
  {
  }
}

=== FILE: user_details.dfy ===
/** The authenticated principal: a stored user together with the roles loaded
    for it, which double as its granted authorities. */
module UserDetails {
  import opened Entities

  datatype Principal = Principal(user: User, authorities: seq<Role>)

  /** Some role in `roles` is the administrator role. */
  function AnyAdmin(roles: seq<Role>): (b: bool)
    ensures b <==> exists i :: 0 <= i < |roles| && roles[i].name == AdminRole
  {
    if |roles| == 0 then false
    else if roles[0].name == AdminRole then true
    else
      var rest := AnyAdmin(roles[1..]);
      assert rest ==> exists i :: 0 <= i < |roles| && roles[i].name == AdminRole by {
        if rest {
          var j :| 0 <= j < |roles[1..]| && roles[1..][j].name == AdminRole;
          assert roles[j + 1].name == AdminRole;
        }
      }
      rest
  }

  /** `getId`: the stored user's id. */
  function Id(p: Principal): (id: UserId)
    ensures id == p.user.id
  {
    p.user.id
  }

  /** `getIsAdmin`: derived from the loaded roles every time it is asked, so a
      principal is an administrator exactly when one of its roles is. */
  function IsAdmin(p: Principal): (b: bool)
    ensures b <==> exists r :: r in p.authorities && r.name == AdminRole
  {
    AnyAdmin(p.authorities)
  }

  /** `getUsername` and `getPassword` read the stored user; the password the
      principal exposes is the stored hash, never a plain text password. */
  function Username(p: Principal): (name: string)
    ensures name == p.user.username
  {
    p.user.username
  }

  function Password(p: Principal): (hash: PasswordHash)
    ensures hash == p.user.passwordHash
  {
    p.user.passwordHash
  }

  /** A principal built from a user and its roles answers with that user's id,
      name and stored hash, and grants exactly those roles. */
  lemma PrincipalReadsUser(u: User, roles: seq<Role>)
    ensures Id(Principal(u, roles)) == u.id && Username(Principal(u, roles)) == u.username
    ensures Password(Principal(u, roles)) == u.passwordHash
    ensures Principal(u, roles).authorities == roles
  {
  }

  /** The four account status flags; none of them ever disables an account. */
  datatype AccountStatus = AccountStatus(nonExpired: bool, nonLocked: bool, credentialsNonExpired: bool, enabled: bool)

  function Status(p: Principal): (s: AccountStatus)
    ensures s.nonExpired && s.nonLocked && s.credentialsNonExpired && s.enabled
  {
    AccountStatus(true, true, true, true)
  }

  /** Adding the administrator role to a principal's roles makes it an
      administrator, and removing every administrator role makes it not one,
      whatever else the role list holds. */
  lemma {:induction false} AdminFollowsRoles(u: User, roles: seq<Role>, admin: Role)
    requires admin.name == AdminRole
    ensures IsAdmin(Principal(u, roles + [admin]))
    ensures !IsAdmin(Principal(u, Filtered(roles)))
  {
    assert (roles + [admin])[|roles|] == admin;
  }

  /** `roles` without its administrator roles, order kept. */
  function Filtered(roles: seq<Role>): (r: seq<Role>)
    ensures forall x :: x in r ==> x in roles && x.name != AdminRole
    ensures forall x :: x in roles && x.name != AdminRole ==> x in r
  {
    if |roles| == 0 then []
    else if roles[0].name == AdminRole then Filtered(roles[1..])
    else [roles[0]] + Filtered(roles[1..])
  }
}

=== FILE: user_details_service.dfy ===
/** Loading the principal for a user name: the user, then its roles, in one
    read-only unit of work against the user repository. */
module UserDetailsService {
  import opened Wrappers
  import opened Errors
  import opened Entities
  import opened SqlErrorCode
  import opened ResultObjects
  import opened RepositoryCalls
  import opened UserDetails
  import UserRepository

  /** The stored procedure outcomes the user repository sees: the lookup by
      name, and the role listing of each user id. */
  datatype UserDirectory = UserDirectory(
    byUsername: string -> CallOutcome<User>,
    rolesOf: UserId -> CallOutcome<Role>)

  /** The exception the service rethrows for a repository exception: a missing
      user becomes `UsernameNotFoundException("User not found")`, a generic
      repository failure becomes a runtime failure, anything else passes. */
  function Rethrown(k: ErrorKind): (r: ErrorKind)
    ensures k == UserNotFound ==> r == UsernameNotFound("User not found")
    ensures k == UserRepositoryFailure ==> r == InternalLoadFailure
    ensures k != UserNotFound && k != UserRepositoryFailure ==> r == k
  {
    if k == UserNotFound then UsernameNotFound("User not found")
    else if k == UserRepositoryFailure then InternalLoadFailure
    else k
  }

  const USER_NOT_FOUND_MESSAGE := "User not found"

  function LoadUserByUsername(dir: UserDirectory, username: string): (r: Result<Principal, ErrorKind>)
    ensures var lookup := UserRepository.GetUserByUsername(dir.byUsername(username));
      && (r.Ok? <==> lookup.Ok? && lookup.value.Some?
                     && UserRepository.GetUserRoles(dir.rolesOf(lookup.value.value.id)).Ok?)
      && (r.Ok? ==> r.value.user == lookup.value.value
                    && r.value.authorities == UserRepository.GetUserRoles(dir.rolesOf(r.value.user.id)).value)
      && (r == Err(UsernameNotFound(USER_NOT_FOUND_MESSAGE)) <==> lookup == Err(UserNotFound))
      && (lookup == Ok(None) ==> r == Err(NullReference))
      && (lookup.Err? ==> r == Err(Rethrown(lookup.error)))
    ensures var lookup := UserRepository.GetUserByUsername(dir.byUsername(username));
      lookup.Ok? && lookup.value.Some? ==>
        var roles := UserRepository.GetUserRoles(dir.rolesOf(lookup.value.value.id));
        roles.Err? ==> r == Err(Rethrown(roles.error))
  {
    var lookup := UserRepository.GetUserByUsername(dir.byUsername(username));
    if lookup.Err? then Err(Rethrown(lookup.error))
    else if lookup.value.None? then Err(NullReference)
    else
      var user := lookup.value.value;
      var roles := UserRepository.GetUserRoles(dir.rolesOf(user.id));
      if roles.Err? then Err(Rethrown(roles.error))
      else Ok(Principal(user, roles.value))
  }

  /** The roles listing never reports a missing user, so a principal load
      fails with `UsernameNotFoundException` exactly when the database raises
      the user-not-found code on the lookup. */
  lemma UnknownUserIffCode(dir: UserDirectory, username: string)
    ensures LoadUserByUsername(dir, username) == Err(UsernameNotFound(USER_NOT_FOUND_MESSAGE))
            <==> (dir.byUsername(username).Threw?
                  && dir.byUsername(username).failure.DataAccess?
                  && GetSqlErrorCode(dir.byUsername(username).failure.error) == Code(20003))
  {
    var call := dir.byUsername(username);
    if call.Threw? && call.failure.DataAccess? {
      UserRepository.LookupFailures(call.failure.error);
    }
  }

  /** Every load reads the directory afresh: a user whose stored roles gain the
      administrator role is an administrator at the next load, with no cached
      principal in between. */
  lemma RolesReadAfresh(dir: UserDirectory, username: string, u: User, roles: seq<Role>)
    requires dir.byUsername(username) == Returned(RowsObject([u]))
    requires dir.rolesOf(u.id) == Returned(RowsObject(roles))
    ensures LoadUserByUsername(dir, username) == Ok(Principal(u, roles))
    ensures IsAdmin(LoadUserByUsername(dir, username).value)
            <==> exists i :: 0 <= i < |roles| && roles[i].name == AdminRole
  {
    UserRepository.RowResults([u], roles);
  }
}

=== FILE: user_repository.dfy ===
/** The user repository: failure translation of the user procedures. Its
    private copies of the code reader and the list unpacking are identical to
    the shared ones, so the shared models serve both. */
module UserRepository {
  import opened Wrappers
  import opened Errors
  import opened Entities
  import opened SqlErrorCode
  import opened ResultObjects
  import opened RepositoryCalls
  import DbErrorCodes

  function DeleteUserArms(c: DbErrorCodes.DbErrorCode): (k: ErrorKind)
    ensures k == UserNotFound <==> c.UserNotFound?
    ensures k == CannotDeleteLastAdmin <==> c.CannotDeleteLastAdmin?
    ensures !c.UserNotFound? && !c.CannotDeleteLastAdmin? ==> k == UserRepositoryFailure
  {
    if c.UserNotFound? then UserNotFound
    else if c.CannotDeleteLastAdmin? then CannotDeleteLastAdmin
    else UserRepositoryFailure
  }

  function CreateUserArms(c: DbErrorCodes.DbErrorCode): (k: ErrorKind)
    ensures k == DuplicateUsername <==> c.DuplicateUsername?
    ensures k == RoleNotFound <==> c.RoleNotFound?
    ensures !c.DuplicateUsername? && !c.RoleNotFound? ==> k == UserRepositoryFailure
  {
    if c.DuplicateUsername? then DuplicateUsername
    else if c.RoleNotFound? then RoleNotFound
    else UserRepositoryFailure
  }

  function UpdateUserArms(c: DbErrorCodes.DbErrorCode): (k: ErrorKind)
    ensures k == UserNotFound <==> c.UserNotFound?
    ensures k == DuplicateUsername <==> c.DuplicateUsername?
    ensures !c.UserNotFound? && !c.DuplicateUsername? ==> k == UserRepositoryFailure
  {
    if c.UserNotFound? then UserNotFound
    else if c.DuplicateUsername? then DuplicateUsername
    else UserRepositoryFailure
  }

  /** The code a user lookup compares the raw code with. */
  const USER_NOT_FOUND_CODE: int := DbErrorCodes.Code(DbErrorCodes.UserNotFound)

  function GetUserByUsername(call: CallOutcome<User>): Result<Option<User>, ErrorKind> {
    RowAfterCodeCheck(call, USER_NOT_FOUND_CODE, UserNotFound, UserRepositoryFailure)
  }

  function GetUser(call: CallOutcome<User>): Result<Option<User>, ErrorKind> {
    RowAfterCodeCheck(call, USER_NOT_FOUND_CODE, UserNotFound, UserRepositoryFailure)
  }

  function GetUsers(call: CallOutcome<User>): Result<seq<User>, ErrorKind> {
    ListAfterCatch(call, UserRepositoryFailure)
  }

  function DeleteUser(call: CallOutcome<User>): Result<Option<User>, ErrorKind> {
    RowAfterSwitch(call, DeleteUserArms, UserRepositoryFailure)
  }

  function CreateUser(call: CallOutcome<User>): Result<Option<User>, ErrorKind> {
    RowInTry(call, CreateUserArms, UserRepositoryFailure)
  }

  function UpdateUser(call: CallOutcome<User>): Result<Option<User>, ErrorKind> {
    RowAfterSwitch(call, UpdateUserArms, UserRepositoryFailure)
  }

  function GetUserRoles(call: CallOutcome<Role>): Result<seq<Role>, ErrorKind> {
    ListAfterCatch(call, UserRepositoryFailure)
  }

  // ---------------------------------------------------------------------------
  // Properties

  /** A user lookup by name or by id: the user-not-found code, and only it,
      becomes user-not-found; an unreadable code escapes as a number-format
      failure; every other failure of the call is the generic one. */
  lemma LookupFailures(e: DataAccessError)
    ensures var r := GetUserByUsername(Threw(DataAccess(e)));
      && r.Err?
      && (r.error == UserNotFound <==> GetSqlErrorCode(e) == Code(20003))
      && (r.error == NumberFormat <==> GetSqlErrorCode(e) == NumberFormatFailure)
      && r.error in {UserNotFound, UserRepositoryFailure, NumberFormat}
    ensures GetUser(Threw(DataAccess(e))) == GetUserByUsername(Threw(DataAccess(e)))
    ensures GetUserByUsername(Threw(NonDataAccess)) == Err(UserRepositoryFailure)
  {
  }

  /** `deleteUser` reports a missing user and the last administrator apart. */
  lemma DeleteUserFailures(e: DataAccessError)
    ensures var r := DeleteUser(Threw(DataAccess(e)));
      && r.Err?
      && (r.error == UserNotFound <==> GetSqlErrorCode(e) == Code(20003))
      && (r.error == CannotDeleteLastAdmin <==> GetSqlErrorCode(e) == Code(20004))
      && r.error in {UserNotFound, CannotDeleteLastAdmin, UserRepositoryFailure, NumberFormat}
  {
  }

  /** `createUser` reports a taken name and an unknown role apart. */
  lemma CreateUserFailures(e: DataAccessError)
    ensures var r := CreateUser(Threw(DataAccess(e)));
      && r.Err?
      && (r.error == DuplicateUsername <==> GetSqlErrorCode(e) == Code(20001))
      && (r.error == RoleNotFound <==> GetSqlErrorCode(e) == Code(20002))
      && r.error in {DuplicateUsername, RoleNotFound, UserRepositoryFailure, NumberFormat}
  {
  }

  /** `updateUser` reports a missing user and a taken name apart. */
  lemma UpdateUserFailures(e: DataAccessError)
    ensures var r := UpdateUser(Threw(DataAccess(e)));
      && r.Err?
      && (r.error == UserNotFound <==> GetSqlErrorCode(e) == Code(20003))
      && (r.error == DuplicateUsername <==> GetSqlErrorCode(e) == Code(20001))
      && r.error in {UserNotFound, DuplicateUsername, UserRepositoryFailure, NumberFormat}
  {
  }

  /** Listing users or roles never reports a missing user: every failure of the
      call is the generic one, and a malformed result escapes as illegal state. */
  lemma ListFailures(f: Failure, users: ResultObject<User>, roles: ResultObject<Role>)
    ensures GetUsers(Threw(f)) == Err(UserRepositoryFailure)
    ensures GetUserRoles(Threw(f)) == Err(UserRepositoryFailure)
    ensures GetUserRoles(Returned(roles)).Err? ==> GetUserRoles(Returned(roles)) == Err(IllegalState)
    ensures GetUsers(Returned(users)).Err? ==> GetUsers(Returned(users)) == Err(IllegalState)
    ensures GetUserRoles(Returned(roles)).Ok? <==> GetListFromResultObject(roles).Ok?
  {
  }

  /** A well-formed row list comes back whole from the list calls, and as its
      first row (or null) from the single-row calls. */
  lemma RowResults(users: seq<User>, roles: seq<Role>)
    ensures GetUsers(Returned(RowsObject(users))) == Ok(users)
    ensures GetUserRoles(Returned(RowsObject(roles))) == Ok(roles)
    ensures GetUserByUsername(Returned(RowsObject(users))) == Ok(FirstOrNull(users))
    ensures GetUser(Returned(RowsObject(users))) == Ok(FirstOrNull(users))
    ensures CreateUser(Returned(RowsObject(users))) == Ok(FirstOrNull(users))
    ensures DeleteUser(Returned(RowsObject(users))) == Ok(FirstOrNull(users))
    ensures UpdateUser(Returned(RowsObject(users))) == Ok(FirstOrNull(users))
  {
    RowsRoundTrip(users);
    RowsRoundTrip(roles);
  }

  /** The database refusing to delete the last administrator, as its message
      reads, becomes the dedicated error. */
  lemma LastAdminMessage(text: string)
    ensures DeleteUser(Threw(DataAccess(DataAccessError(SqlException(Some(OracleMessage(20004, text)))))))
            == Err(CannotDeleteLastAdmin)
  {
    OracleMessageRoundTrip(20004, text);
  }
}

=== FILE: wrappers.dfy ===
/** Failure-compatible wrappers used throughout the model: `Option` stands for a
    Java reference that may be `null`, `Result` for a call that either returns a
    value or throws. */
module Wrappers {

  /** A value or its absence (Java `null`). */
  datatype Option<+T> = None | Some(value: T)

  /** A returned value, or the exception a call throws. */
  datatype Result<+T, +E> = Ok(value: T) | Err(error: E)
}
